=== FILE: README.md ===
# todo-vibe board engine in Dafny

This project models the in-memory state engine of the todo-vibe task board
(`app.js`). A board is a list of tasks together with an ordered list of
columns, and each column holds an ordered list of task ids. Every mutation
listed below is modelled as a pure function of the board it starts from
(column rename, the one other mutation the page makes, is left out):

- adding, removing, toggling, editing and moving tasks;
- deleting a column;
- the daily expiry;
- the drag-and-drop reconciliation.

In the page, `addTask`, `removeTask`, `toggleTask`, `updateTask` and
`removeColumn` each call `render()` (app.js:380, 390, 407, 445, 648),
and `render` starts with `expireOldTasks` (app.js:133). The model keeps each
operation apart from the expiry that follows it. So for each call that gets
past its early return (app.js:353, 396, 436, 630) the board afterwards is
`Expiry.ExpireOldTasks(Op(b), today)`; a call that returns early leaves the
board as it was and renders nothing. `Expiry.AddedOnOtherDayExpires`
shows one consequence: a task added for a day other than today disappears
in that same render.

The model also covers the small pure helpers: HTML escaping, the relative-time
label and month navigation. It covers the load/save fallback policy too.
Lemmas then prove what each operation promises, and that every operation
except reconciliation keeps the board invariant `Domain.Valid`. That
invariant has five parts:

- task ids are unique;
- column ids are unique;
- every listed id names a task;
- each id is listed at most once across all columns;
- every task is listed.

Reconciliation does not keep it. The page shows only the tasks of the
selected day (app.js:136-150), and a drop overwrites each column's list with
the ids shown in it (app.js:782). After a drop on another day than today, a
task dated today is listed nowhere. `Reconcile.ReconcileMayUnlistTask` gives
a valid board and a report that make the result invalid.

Modules, one per component:

| module | file | models |
|---|---|---|
| `Common` | common.dfy | `Option`, `Array.prototype.filter`, `find`/`findIndex`, the subsequence relation |
| `Text` | text.dfy | `String.prototype.trim` (ECMAScript white space and line terminators), ASCII `toLowerCase`, decimal rendering of counts |
| `Html` | html.dfy | `escapeHtml` |
| `RelativeTime` | relative_time.dfy | `formatRelativeTime` |
| `Calendar` | calendar.dfy | the previous/next month buttons |
| `Domain` | domain.dfy | tasks, columns, the board, the date filter, column lookup by id and by name, the board invariant |
| `Store` | store.dfy | `moveTaskToColumn`, `addTask`, `removeTask`, `toggleTask`, `updateTask` |
| `Columns` | columns.dfy | `removeColumn` |
| `Expiry` | expiry.dfy | `expireOldTasks` and the per-day column view of `render` |
| `Reconcile` | reconcile.dfy | `persistAndSync`, with the page's lists given as a sequence of reports |
| `Persistence` | load.dfy | `sampleData`, `load`, `save` |

Conventions:

- A JavaScript `find` returns the first match. So toggling, editing and
  reconciling touch only the first task that carries an id.
- `x || y` on strings treats the empty string as missing. `Domain.DateOr`
  models this for a task's date and for the saved selected date.
- The source calls `uid()`, `Date.now()` and `new Date()`. In the model their
  results are parameters: fresh ids, timestamps, today's ISO date, and the
  current year and month.
- In `updateTask`, the end-of-day due time is computed by a function the
  caller supplies.
- `Math.round(x / k)` with `x >= 0` and an even `k` is `(x + k / 2) / k`.
  The label rounds seconds, then minutes, then hours, each from the previous
  rounded value. So 89.5 seconds is labelled "2 mins", although it is nearer
  one minute (`RelativeTime.DoubleRoundingExample`).

Facts about the code that the contracts reflect:

- Completion can disagree with the owning column.
  - `moveTaskToColumn` never changes `completed`.
  - A toggle on a board without a done-like column lands in the last column,
    and one without a todo-like column lands in the first, whatever its name.
  - Agreement is proved exactly where the code provides it:
    `Store.ToggleTaskCompletionAgrees`, `Reconcile.ReconcileHonoursReports`
    and `Persistence.SampleDataCompletion`.
- `load` only checks that both saved lists parse and are non-empty, then
  uses them as they are. So `Persistence.LoadValid` needs a valid saved board.
- `moveTaskToColumn` with an unknown column drops the id from every column.
  Afterwards the task is listed nowhere. With an unknown task id it lists an
  id that names no task. That is why `Store.MoveTaskPreservesValid` asks for
  an existing task and an existing column. `toggleTask`, its only caller in
  the model, always meets both conditions.

## Model

| member | source | states |
|---|---|---|
| Html.EscapeHtml | app.js:329-334 | the escaped text is never shorter than the input and contains no `<`, `>` or `"` |
| Html.EscapeRoundTrip | app.js:329-334 | escaping loses nothing: decoding the four references gives back the original text |
| Html.EscapeIdentityIff | app.js:329-334 | escaping leaves a text unchanged exactly when it holds none of `&`, `<`, `>`, `"` |
| RelativeTime.RoundDiv | app.js:338-341 | the rounded quotient is the integer nearest to `x / k`, halves going up, as `Math.round` on a non-negative value |
| RelativeTime.Bucket | app.js:337-347 | "moments" exactly below 44 500 ms, minutes (1 to 44) up to 2 669 500 ms, hours (1 to 35) up to 127 769 500 ms, days (at least 2) beyond; the count times the unit is within 30 500 ms of the distance for minutes, 1 830 500 ms for hours and 45 030 500 ms for days |
| RelativeTime.FormatRelativeTime | app.js:336-349 | the label starts with "in " exactly for a non-negative distance, ends with " ago" exactly for a negative one, and reads "moments" exactly below 44.5 s |
| RelativeTime.SpanTextShape | app.js:342-347 | only the moments bucket reads "moments"; every other body starts with a digit |
| RelativeTime.CountedShape | app.js:342 | a counted body starts with a digit and ends in "s" when the count is not one, else in the unit's last letter |
| RelativeTime.PluralIff | app.js:342 | the unit gets a plural "s" exactly when its count is not one |
| RelativeTime.SignOnlyChangesAffix | app.js:337-348 | a past and a future distance of the same size share one body, differing only in "in " versus " ago" |
| RelativeTime.DoubleRoundingExample | app.js:338-341 | 89.5 s is labelled two minutes, because minutes are rounded from already rounded seconds |
| Calendar.PrevMonth | app.js:526-533 | on a valid cursor the result is a valid cursor exactly one month earlier, December of the previous year after January |
| Calendar.NextMonth | app.js:535-542 | on a valid cursor the result is a valid cursor exactly one month later, January of the next year after December |
| Calendar.PrevNextInverse | app.js:526-541 | the previous and next buttons undo each other on every valid cursor |
| Text.Trim | app.js:352 | the result is the input minus a leading and a trailing run of white space, and neither starts nor ends with white space |
| Text.TrimEmptyIff | app.js:352-353 | trimming gives the empty string exactly when the text is all white space |
| Text.TrimIdempotent | app.js:437-438 | trimming a trimmed text changes nothing |
| Text.Lower | app.js:614-615 | the lowered name has the same length, holds no ASCII capital, and differs from the input only where a capital A-Z became its small letter |
| Text.LowerIdempotent | app.js:614-615 | lowering a lowered name changes nothing |
| Text.NatToString | app.js:342 | the count is written in decimal digits only, without a leading zero, and reads back as the count |
| Common.Filter | app.js:385 | the survivors are exactly the elements meeting the predicate, in their original order; when every element meets it nothing is dropped |
| Common.FilterCounts | app.js:385 | every element meeting the predicate survives as often as it occurs, and no other element survives |
| Common.FindIndex | app.js:629 | the index of the first element meeting the predicate, or none exactly when no element does |
| Domain.DateOr | app.js:418 | the fallback is chosen exactly when the date is missing, empty or equal to the fallback; any other result is the date itself |
| Domain.OnDateMeaning | app.js:138 | a task shows on a day exactly when it has no date, an empty date or that date |
| Domain.FindTask | app.js:395 | the first task with the id, or none exactly when no task has it |
| Domain.FindColumn | app.js:622 | the first column with the id, or none exactly when no column has it |
| Domain.FindColumnByNames | app.js:613-616 | the first column whose lower-cased name is in the set, or none exactly when no column's is |
| Domain.DistinctPlacementMeaning | app.js:619-625 | under the board invariant two columns that both list an id are the same column, and that column lists it once; stripping the id from every column before placing it keeps this |
| Domain.DoneTodoDisjoint | app.js:400-402 | no column name is both done-like and todo-like |
| Store.StripId | app.js:619-621 | every column keeps its id and name; its new list is an order-preserving sub-list of the old one that holds every other id the old one held and never the stripped id |
| Store.StripIdCounts | app.js:619-621 | across the board the id's count drops to zero and every other count is unchanged |
| Store.Place | app.js:624-625 | the id is added once, at the tail for "bottom" and at the head otherwise, the old list following or preceding it unchanged |
| Store.MoveTaskToColumn | app.js:618-626 | a move changes no task and no column id or name |
| Store.MoveTaskCounts | app.js:618-626 | afterwards the id is listed exactly once if the target column exists, otherwise nowhere, and every other id keeps its count |
| Store.MoveTaskLands | app.js:622-625 | in an existing target column the id ends up at the tail for "bottom" and at the head otherwise |
| Store.MoveTaskLeavesOthers | app.js:619-625 | after a move into an existing column no other column lists the id |
| Store.MoveTaskKeepsOthers | app.js:619-625 | every column but the target keeps, in order, exactly its other ids; so does the target list next to the placed id |
| Store.MoveTaskPreservesValid | app.js:618-626 | moving an existing task into an existing column keeps the board valid |
| Store.AddTarget | app.js:377 | the target is the first column with the id when there is one, else the first column |
| Store.AddTask | app.js:351-378 | blank text changes nothing; otherwise a not-completed task with the trimmed text heads the task list, its id heads the target column, and no other column changes |
| Store.AddTaskIds | app.js:368-376 | with a fresh id the task ids stay unique and gain exactly the new id |
| Store.AddTaskColumns | app.js:376-378 | the new id is listed exactly once, every other id keeps its count, and the listing invariants hold |
| Store.AddTaskPreservesValid | app.js:351-378 | adding a task under a fresh id keeps the board valid |
| Store.RemoveTask | app.js:384-388 | afterwards no task and no column mentions the id; every other task and every other listed id survives, in order, and column ids and names stay |
| Store.RemoveTaskCounts | app.js:386-388 | the id's count across all columns drops to zero and every other count is unchanged |
| Store.RemoveUnknownTask | app.js:384-388 | removing an id that no task carries and no column lists changes nothing |
| Store.RemoveTaskPreservesValid | app.js:384-388 | removing a task keeps the board valid |
| Store.Destination | app.js:399-402 | completing picks the first done-like column, else the last; reopening picks the first todo-like column, else the first; none only on a board without columns |
| Store.ToggleTask | app.js:394-405 | an unknown id changes nothing; otherwise exactly the first task with the id has its completion flipped |
| Store.ToggleTaskRelocates | app.js:394-405 | the toggled id heads its destination column, no other column lists it, and every other id keeps its count |
| Store.ToggleTaskKeepsOthers | app.js:394-405 | every column keeps, in order, exactly its other ids, the destination column behind the toggled id |
| Store.ToggleTaskCompletionAgrees | app.js:397-405 | a task just completed sits in a done-like column if the board has one; a task just reopened sits in a column that is not done-like if the board has a todo-like one |
| Store.ToggleTaskPreservesValid | app.js:394-405 | toggling keeps the board valid |
| Store.UpdateTask | app.js:434-443 | an unknown id changes nothing; otherwise only the first task with the id changes: the trimmed text unless blank, the due time reset when the task has a date |
| Store.UpdateTaskPreservesValid | app.js:434-443 | editing a task keeps the board valid |
| Columns.RemoveColumn | app.js:628-646 | an unknown column id changes nothing; otherwise the tasks stay and the board keeps at least one column |
| Columns.RemoveColumnTarget | app.js:629-646 | the removed ids are prepended, in order, to the next column, else to the previous one, else they fill a new column "Column"; the other columns keep their order |
| Columns.RemoveColumnKeepsIds | app.js:628-646 | the multiset of listed ids across the board is unchanged |
| Columns.RemoveColumnUniqueIds | app.js:635-641 | the column ids stay distinct |
| Columns.RemoveColumnPreservesValid | app.js:628-646 | deleting a column keeps the board valid |
| Columns.RemoveOnlyColumn | app.js:637-645 | deleting the only column leaves exactly one new column "Column" holding its ids |
| Expiry.ExpireOldTasks | app.js:412-429 | exactly the tasks shown today survive, in order and as often as they occurred; every column keeps its id and name and keeps, in order, exactly the ids of surviving tasks, each as often as it was listed there |
| Expiry.ExpireIdempotent | app.js:412-429 | a second expiry on the same day changes nothing |
| Expiry.ExpirePreservesValid | app.js:412-429 | expiry keeps the board valid |
| Expiry.AddedOnOtherDayExpires | app.js:351-380 | a task added under a fresh id for a day other than today is in no task and no column once the render's expiry has run |
| Expiry.ColumnView | app.js:136-150 | each column shows, in order, exactly its ids whose tasks are shown on the day, each as often as the column lists it |
| Expiry.ExpiredViewShowsAll | app.js:132-150 | after expiry, today's view of every column is its whole list |
| Reconcile.MarkFirst | app.js:789-792 | only the first task with the id changes, and only its completion |
| Reconcile.MarkAll | app.js:788-793 | each task that is the first with a listed id gets the new completion; all others are unchanged |
| Reconcile.ApplyReport | app.js:779-793 | an unknown column is skipped; otherwise that column's list becomes the reported list and listed tasks take the column's done-ness |
| Reconcile.Reconcile | app.js:774-794 | reconciliation changes only completion flags and column lists, never task ids, column ids or names |
| Reconcile.ReconcileMayUnlistTask | app.js:782 | a report that leaves out a listed task turns a valid board into one where that task is listed nowhere |
| Reconcile.ReconcileHonoursReports | app.js:774-794 | with distinct reported columns and disjoint lists, every column lists exactly its report and its tasks' completion follows the column's name |
| Reconcile.UnreportedColumnKept | app.js:780-782 | a column no report names keeps its list |
| Reconcile.UnlistedTaskKept | app.js:788-793 | a task no report lists is unchanged |
| Reconcile.DoneAndTodoReports | app.js:782-793 | a drop between a done-like and a todo-like column completes the tasks listed in the first and reopens those in the second |
| Persistence.SampleData | app.js:105-130 | the seed board has four undated tasks and the columns "Todo", "Doing", "Done" |
| Persistence.SampleDataFlatten | app.js:126-128 | the seed columns list the tasks in the order first, third, second, fourth |
| Persistence.SampleDataValid | app.js:105-130 | with distinct seed ids the seed board is valid |
| Persistence.SampleDataCompletion | app.js:125-128 | on the seed board a task is completed exactly when a done-like column lists it |
| Persistence.Load | app.js:36-69 | a usable saved board is restored and anything else yields the seed board; the date is the saved one unless missing or empty, else today; the cursor is today's month; images fall back to none |
| Persistence.Save | app.js:71-79 | a later load finds the stored board usable exactly when it has tasks and columns, and then reads back the same board; the stored date reads back unless empty, when today stands in; the images read back |
| Persistence.SaveLoadRoundTrip | app.js:36-79 | saving then loading restores a non-empty board, the selected day and the images |
| Persistence.EmptyBoardReseeds | app.js:42-46 | a board saved with no tasks comes back as the seed board |
| Persistence.LoadValid | app.js:36-51 | the loaded board is valid whenever the saved one is, or the seed ids are distinct |

## Left out

- Rendering and templating (`render` beyond its day filter, `renderCalendar`, `templateItem`, edit mode, event wiring) is left out: it is DOM plumbing that only calls into the modelled operations.
- `initSortable` and its retry timer are left out: they belong to a foreign drag-and-drop library. Only the reconciliation rule applied after a drop is modelled, and the page's lists become a sequence of reports.
- Storage access and JSON are left out: they are I/O. A stored key is modelled as absent, malformed or parsed. A parsed value that is not an array is not modelled.
- Theme handling (`setTheme`, `inferSystemTheme`, `toggleTheme`) is left out: it is UI state unrelated to the board.
- Background-image upload and clearing are left out: they use file reading and DOM styling. The image map is only loaded and saved.
- `countTasksByDate` and the due-time computation in `addTask` and `updateTask` are left out: both depend on JavaScript `Date` parsing and the local time zone. The due time of a new task is a parameter. For an edit it comes from an end-of-day function the caller supplies.
- Column rename (app.js:577-589) is left out: it is a UI handler that reads a browser prompt and only sets a column's name.
- The click guard that only toggles uncompleted tasks (app.js:506) is left out: it is UI policy. So is the guard that refuses adding into "doing" and "done" columns (app.js:569). The modelled operations accept every call the functions themselves accept.
- `uid()` is left out: it draws randomness. Its results are parameters, and `Store.AddTaskPreservesValid` assumes the new id is fresh.
- Text.Lower: only ASCII letters are case-mapped. `toLowerCase` also maps other letters, and users name columns freely: "Tas\u212As" (with the Kelvin sign) is todo-like in the source but not in the model, because the full Unicode case mapping is not modelled. The done-column test at app.js:785 uses a `/i` regex without the `u` flag, and there ASCII case folding of the ASCII pattern is exact.
- Store.AddTask: requires a column when the text is not blank. Blank text returns at app.js:353 before any column is touched, and the model accepts it on every board. With text and no columns the source puts the task in front of the list and then throws at app.js:378; that half-done state is not modelled. It cannot arise in the page: `load` reseeds a board saved without columns, and `removeColumn` always leaves one.
- Store.ToggleTaskCompletionAgrees: states agreement only when the board has a done-like column (for completing) or a todo-like column (for reopening). Otherwise the source moves the task to the last or first column whatever its name.
- Reconcile.ReconcileHonoursReports: assumes the reported columns are distinct and no task id is reported twice. A page lists each column once and each task in one place. Otherwise later reports override earlier ones.
- Persistence.Load: requires a month in 0 to 11, the range of `getMonth`.
- RelativeTime.FormatRelativeTime: takes a whole number of milliseconds. Fractional and non-finite distances are not modelled.

=== FILE: calendar.dfy ===
/**
  The calendar cursor (viewed year and zero-based month) and the
  previous/next month buttons, which roll the year over at the
  January/December boundary.
 */
module Calendar {

  datatype Cursor = Cursor(year: int, month: int)

  predicate ValidMonth(c: Cursor)
  {
    0 <= c.month <= 11
  }

  /** Months since the start of year 0: the cursor's position on a single time line. */
  function MonthIndex(c: Cursor): int
  {
    c.year * 12 + c.month
  }

  /** The "previous month" button: one step back, wrapping month -1 to 11 of the year before. */
  function PrevMonth(c: Cursor): (r: Cursor)
    ensures ValidMonth(c) ==> ValidMonth(r) && MonthIndex(r) == MonthIndex(c) - 1
  {
    var m := c.month - 1;
    if m < 0 then Cursor(c.year - 1, 11) else Cursor(c.year, m)
  }

  /** The "next month" button: one step forward, wrapping month 12 to 0 of the year after. */
  function NextMonth(c: Cursor): (r: Cursor)
    ensures ValidMonth(c) ==> ValidMonth(r) && MonthIndex(r) == MonthIndex(c) + 1
  {
    var m := c.month + 1;
    if m > 11 then Cursor(c.year + 1, 0) else Cursor(c.year, m)
  }

  /** A valid cursor is determined by its month index. */
  lemma MonthIndexInjective(a: Cursor, b: Cursor)
    requires ValidMonth(a) && ValidMonth(b)
    requires MonthIndex(a) == MonthIndex(b)
    ensures a == b
  {
  }

  /** The two buttons undo each other on every valid cursor. */
  lemma PrevNextInverse(c: Cursor)
    requires ValidMonth(c)
    ensures NextMonth(PrevMonth(c)) == c
    ensures PrevMonth(NextMonth(c)) == c
  {
    MonthIndexInjective(NextMonth(PrevMonth(c)), c);
    MonthIndexInjective(PrevMonth(NextMonth(c)), c);
  }
}

=== FILE: columns.dfy ===
/**
  `removeColumn`: deleting a column never loses a task id. Its ids are
  prepended to the next column, else to the previous one, else to a fresh
  column named "Column" created because the board would otherwise have no
  columns left.
 */
module Columns {
  import opened Common
  import opened Domain

  const FallbackColumnName: string := "Column"

  /**
    The board after deleting the first column with id `columnId`;
    `newColumnId` is the id `uid()` would supply for a fallback column.
    The source only prepends when the removed list is non-empty, which is
    the same as prepending an empty list.
   */
  function RemoveColumn(b: Board, columnId: Id, newColumnId: Id): (r: Board)
    ensures FindColumn(b.columns, columnId).None? ==> r == b
    ensures FindColumn(b.columns, columnId).Some? ==> |r.columns| > 0 && r.tasks == b.tasks
  {
    match FindColumn(b.columns, columnId)
    case None => b
    case Some(i) =>
      var removed := b.columns[i];
      var rest := b.columns[..i] + b.columns[i + 1..];
      if |rest| == 0 then
        b.(columns := [Column(newColumnId, FallbackColumnName, removed.taskIds)])
      else
        var t := if i + 1 < |b.columns| then i else i - 1;
        b.(columns := Relist(rest, t, removed.taskIds + rest[t].taskIds))
  }

  /**
    Where the removed ids go: in front of the next column's ids if there is
    a next column, else in front of the previous column's ids, else into a
    new fallback column; every other column is kept as it was, in order.
   */
  lemma RemoveColumnTarget(b: Board, columnId: Id, newColumnId: Id)
    requires FindColumn(b.columns, columnId).Some?
    ensures var i := FindColumn(b.columns, columnId).value;
      var removed := b.columns[i].taskIds;
      var r := RemoveColumn(b, columnId, newColumnId);
      && (|b.columns| == 1 ==> r.columns == [Column(newColumnId, "Column", removed)])
      && (i + 1 < |b.columns| ==>
            && |r.columns| == |b.columns| - 1
            && r.columns[i] == b.columns[i + 1].(taskIds := removed + b.columns[i + 1].taskIds)
            && r.columns[..i] == b.columns[..i]
            && r.columns[i + 1..] == b.columns[i + 2..])
      && (i + 1 == |b.columns| && i > 0 ==>
            && |r.columns| == |b.columns| - 1
            && r.columns[i - 1] == b.columns[i - 1].(taskIds := removed + b.columns[i - 1].taskIds)
            && r.columns[..i - 1] == b.columns[..i - 1])
  {
    var i := FindColumn(b.columns, columnId).value;
    var rest := b.columns[..i] + b.columns[i + 1..];
    if i + 1 < |b.columns| {
      assert rest[i] == b.columns[i + 1];
      assert rest[..i] == b.columns[..i];
      assert rest[i + 1..] == b.columns[i + 2..];
    } else if i > 0 {
      assert rest[i - 1] == b.columns[i - 1];
      assert rest[..i - 1] == b.columns[..i - 1];
    }
  }

  /** The board-wide multiset of listed ids is unchanged: nothing is lost or duplicated. */
  lemma RemoveColumnKeepsIds(b: Board, columnId: Id, newColumnId: Id)
    ensures multiset(Flatten(RemoveColumn(b, columnId, newColumnId).columns)) == multiset(Flatten(b.columns))
  {
    match FindColumn(b.columns, columnId)
    case None =>
    case Some(i) =>
      var removed := b.columns[i];
      var rest := b.columns[..i] + b.columns[i + 1..];
      FlattenRemoveAt(b.columns, i);
      if |rest| == 0 {
        FlattenSingle(Column(newColumnId, FallbackColumnName, removed.taskIds));
        assert Flatten(rest) == [];
      } else {
        var t := if i + 1 < |b.columns| then i else i - 1;
        ExtendCounts(rest, t, multiset(removed.taskIds), removed.taskIds + rest[t].taskIds);
      }
  }

  /** Removing a column keeps the column ids distinct; the fallback column only appears on an otherwise empty board. */
  lemma RemoveColumnUniqueIds(b: Board, columnId: Id, newColumnId: Id)
    requires UniqueColumnIds(b.columns)
    ensures UniqueColumnIds(RemoveColumn(b, columnId, newColumnId).columns)
  {
    match FindColumn(b.columns, columnId)
    case None =>
    case Some(i) =>
      var rest := b.columns[..i] + b.columns[i + 1..];
      forall p, q | 0 <= p < q < |rest|
        ensures rest[p].id != rest[q].id
      {
        var p' := if p < i then p else p + 1;
        var q' := if q < i then q else q + 1;
        assert rest[p] == b.columns[p'] && rest[q] == b.columns[q'];
      }
  }

  /** Removing a column keeps the board valid. */
  lemma RemoveColumnPreservesValid(b: Board, columnId: Id, newColumnId: Id)
    requires Valid(b)
    ensures Valid(RemoveColumn(b, columnId, newColumnId))
  {
    RemoveColumnKeepsIds(b, columnId, newColumnId);
    RemoveColumnUniqueIds(b, columnId, newColumnId);
    SameListingValid(b, RemoveColumn(b, columnId, newColumnId));
  }

  /** Removing the last column of a board yields exactly the fallback column holding the removed ids. */
  lemma RemoveOnlyColumn(b: Board, newColumnId: Id)
    requires |b.columns| == 1
    ensures RemoveColumn(b, b.columns[0].id, newColumnId).columns
         == [Column(newColumnId, "Column", b.columns[0].taskIds)]
  {
    RemoveColumnTarget(b, b.columns[0].id, newColumnId);
  }
}

=== FILE: common.dfy ===
/**
  Generic sequence helpers shared by the board model: an optional value,
  the subsequence relation, order-keeping filtering (JavaScript's
  `Array.prototype.filter`) and first-match search (`Array.prototype.find`
  and `findIndex`).
 */
module Common {

  datatype Option<T> = None | Some(value: T)

  /** `r` is obtained from `s` by deleting elements; the survivors keep their order. */
  predicate IsSubseq<T(==)>(r: seq<T>, s: seq<T>)
    decreases |s|
  {
    if |r| == 0 then true
    else if |s| == 0 then false
    else (r[0] == s[0] && IsSubseq(r[1..], s[1..])) || IsSubseq(r, s[1..])
  }

  /** The elements of `s` satisfying `p`, in their original order. */
  function Filter<T(==,!new)>(s: seq<T>, p: T -> bool): (r: seq<T>)
    ensures forall x :: x in r <==> x in s && p(x)
    ensures IsSubseq(r, s)
    ensures (forall i :: 0 <= i < |s| ==> p(s[i])) ==> r == s
  {
    if |s| == 0 then []
    else
      var tail := Filter(s[1..], p);
      assert s == [s[0]] + s[1..];
      if p(s[0]) then
        var r := [s[0]] + tail;
        assert r[1..] == tail;
        r
      else
        tail
  }

  /** Filtering a list with a known head: the head survives exactly when it satisfies `p`. */
  lemma FilterCons<T(!new)>(x: T, s: seq<T>, p: T -> bool)
    ensures Filter([x] + s, p) == if p(x) then [x] + Filter(s, p) else Filter(s, p)
  {
    assert ([x] + s)[1..] == s;
  }

  /** Every element satisfying `p` survives filtering as often as it occurs; no other element survives. */
  lemma {:induction false} FilterCounts<T(!new)>(s: seq<T>, p: T -> bool)
    ensures forall x :: multiset(Filter(s, p))[x] == if p(x) then multiset(s)[x] else 0
  {
    if |s| > 0 {
      FilterCounts(s[1..], p);
      assert s == [s[0]] + s[1..];
      FilterCons(s[0], s[1..], p);
    }
  }

  /** Filtering distributes over concatenation: what survives of `a` precedes what survives of `b`. */
  lemma {:induction false} FilterConcat<T(!new)>(a: seq<T>, b: seq<T>, p: T -> bool)
    ensures Filter(a + b, p) == Filter(a, p) + Filter(b, p)
  {
    if |a| == 0 {
      assert a + b == b;
    } else {
      assert (a + b)[1..] == a[1..] + b;
      FilterConcat(a[1..], b, p);
    }
  }

  /** The index of the first element of `s` satisfying `p`, if any. */
  function FindIndex<T>(s: seq<T>, p: T -> bool): (r: Option<nat>)
    ensures r.None? <==> forall i :: 0 <= i < |s| ==> !p(s[i])
    ensures r.Some? ==> r.value < |s| && p(s[r.value])
    ensures r.Some? ==> forall j :: 0 <= j < r.value ==> !p(s[j])
  {
    if |s| == 0 then None
    else if p(s[0]) then Some(0)
    else
      match FindIndex(s[1..], p)
      case None =>
        assert forall i :: 1 <= i < |s| ==> s[i] == s[1..][i - 1];
        None
      case Some(i) =>
        assert forall j :: 1 <= j < i + 1 ==> s[j] == s[1..][j - 1];
        Some(i + 1)
  }
}

=== FILE: domain.dfy ===
/**
  The board's entities: tasks, columns (an ordered list of task ids each)
  and the board holding both, together with the membership invariants the
  operations maintain and the column-name policy that designates the
  "done-like" and "todo-like" columns.
 */
module Domain {
  import opened Common
  import opened Text

  type Id = string

  /** A task; `dueAt` is an opaque timestamp computed outside the model. */
  datatype Task = Task(id: Id, text: string, completed: bool, date: Option<string>, createdAt: int, dueAt: Option<int>)

  datatype Column = Column(id: Id, name: string, taskIds: seq<Id>)

  datatype Board = Board(tasks: seq<Task>, columns: seq<Column>)

  datatype Position = Top | Bottom

  // ---------------------------------------------------------------------
  // Dates

  /** `d || fallback`: a missing or empty date string falls back. */
  function DateOr(d: Option<string>, fallback: string): (r: string)
    ensures r == fallback <==> d.None? || d.value == "" || d.value == fallback
    ensures r != fallback ==> d.Some? && r == d.value
  {
    if d.Some? && d.value != "" then d.value else fallback
  }

  /** The board-view filter: an undated task belongs to whatever day is selected. */
  predicate OnDate(t: Task, day: string)
  {
    DateOr(t.date, day) == day
  }

  /** `OnDate` as a filter predicate. */
  function OnDay(day: string): Task -> bool
  {
    (t: Task) => OnDate(t, day)
  }

  /** A task shows on `day` exactly when it has no date, an empty date, or the date `day`. */
  lemma OnDateMeaning(t: Task, day: string)
    ensures OnDate(t, day) <==> t.date.None? || t.date.value == "" || t.date.value == day
  {
  }

  // ---------------------------------------------------------------------
  // Lookup

  function TaskIds(tasks: seq<Task>): set<Id>
  {
    set t | t in tasks :: t.id
  }

  /** Membership in `ids`, as a filter predicate on ids. */
  function InSet(ids: set<Id>): Id -> bool
  {
    (x: Id) => x in ids
  }

  /** Every id but `id`, as a filter predicate on ids. */
  function OtherId(id: Id): Id -> bool
  {
    (x: Id) => x != id
  }

  /** Every task whose id is not `id`, as a filter predicate on tasks. */
  function OtherTask(id: Id): Task -> bool
  {
    (t: Task) => t.id != id
  }

  /** `tasks.find(t => t.id === id)`, as an index. */
  function FindTask(tasks: seq<Task>, id: Id): (r: Option<nat>)
    ensures r.None? <==> id !in TaskIds(tasks)
    ensures r.Some? ==> r.value < |tasks| && tasks[r.value].id == id && FirstOfId(tasks, r.value)
  {
    var r := FindIndex(tasks, (t: Task) => t.id == id);
    assert r.None? ==> forall t :: t in tasks ==> t.id != id;
    r
  }

  /** No task before index `i` has the id of task `i`: `find` by that id stops at `i`. */
  predicate FirstOfId(tasks: seq<Task>, i: nat)
    requires i < |tasks|
  {
    forall j :: 0 <= j < i ==> tasks[j].id != tasks[i].id
  }

  /** `columns.find(c => c.id === id)`, as an index. */
  function FindColumn(cols: seq<Column>, id: Id): (r: Option<nat>)
    ensures r.None? <==> forall i :: 0 <= i < |cols| ==> cols[i].id != id
    ensures r.Some? ==> r.value < |cols| && cols[r.value].id == id
    ensures r.Some? ==> forall j :: 0 <= j < r.value ==> cols[j].id != id
  {
    FindIndex(cols, (c: Column) => c.id == id)
  }

  // ---------------------------------------------------------------------
  // Column-name policy

  const DoneNames: set<string> := {"done", "completed", "complete"}
  const TodoNames: set<string> := {"todo", "to do", "backlog", "tasks"}

  /** `/^(done|completed|complete)$/i`, equivalently the lower-cased name is in `DoneNames`. */
  predicate IsDoneName(name: string)
  {
    Lower(name) in DoneNames
  }

  predicate IsTodoName(name: string)
  {
    Lower(name) in TodoNames
  }

  /** No name is both done-like and todo-like. */
  lemma DoneTodoDisjoint(name: string)
    ensures !(IsDoneName(name) && IsTodoName(name))
  {
  }

  /** `findColumnByNames`: the first column whose lower-cased name is in `names`. */
  function FindColumnByNames(cols: seq<Column>, names: set<string>): (r: Option<nat>)
    ensures r.None? <==> forall i :: 0 <= i < |cols| ==> Lower(cols[i].name) !in names
    ensures r.Some? ==> r.value < |cols| && Lower(cols[r.value].name) in names
    ensures r.Some? ==> forall j :: 0 <= j < r.value ==> Lower(cols[j].name) !in names
  {
    FindIndex(cols, (c: Column) => Lower(c.name) in names)
  }

  // ---------------------------------------------------------------------
  // All column ids, in column order

  /** The concatenation of every column's id list. */
  function Flatten(cols: seq<Column>): seq<Id>
  {
    if |cols| == 0 then [] else cols[0].taskIds + Flatten(cols[1..])
  }

  lemma {:induction false} FlattenConcat(a: seq<Column>, b: seq<Column>)
    ensures Flatten(a + b) == Flatten(a) + Flatten(b)
  {
    if |a| == 0 {
      assert a + b == b;
    } else {
      assert (a + b)[1..] == a[1..] + b;
      FlattenConcat(a[1..], b);
    }
  }

  lemma FlattenSingle(c: Column)
    ensures Flatten([c]) == c.taskIds
  {
    assert [c][1..] == [];
  }

  /** An id is listed somewhere on the board exactly when some column lists it. */
  lemma {:induction false} InFlatten(cols: seq<Column>, x: Id)
    ensures x in Flatten(cols) <==> exists i :: 0 <= i < |cols| && x in cols[i].taskIds
  {
    if |cols| > 0 {
      InFlatten(cols[1..], x);
      if x in Flatten(cols[1..]) {
        var i :| 0 <= i < |cols[1..]| && x in cols[1..][i].taskIds;
        assert x in cols[i + 1].taskIds;
      }
      if exists i :: 0 <= i < |cols| && x in cols[i].taskIds {
        var i :| 0 <= i < |cols| && x in cols[i].taskIds;
        if i > 0 {
          assert x in cols[1..][i - 1].taskIds;
        }
      }
    }
  }

  /** Replacing column `k` swaps that column's ids for the new ones in the board-wide multiset. */
  lemma FlattenUpdate(cols: seq<Column>, k: nat, c: Column)
    requires k < |cols|
    ensures multiset(Flatten(cols[k := c])) + multiset(cols[k].taskIds)
         == multiset(Flatten(cols)) + multiset(c.taskIds)
  {
    var pre := cols[..k];
    var post := cols[k + 1..];
    assert cols == pre + [cols[k]] + post;
    assert cols[k := c] == pre + [c] + post;
    FlattenConcat(pre + [cols[k]], post);
    FlattenConcat(pre, [cols[k]]);
    FlattenConcat(pre + [c], post);
    FlattenConcat(pre, [c]);
    FlattenSingle(cols[k]);
    FlattenSingle(c);
  }

  /** Column `k` with its id list replaced by `ids`; every other column as it was. */
  function Relist(cols: seq<Column>, k: nat, ids: seq<Id>): (r: seq<Column>)
    requires k < |cols|
    ensures SameHeads(r, cols)
    ensures r[k].taskIds == ids
    ensures forall i :: 0 <= i < |cols| && i != k ==> r[i] == cols[i]
  {
    cols[k := cols[k].(taskIds := ids)]
  }

  /** Giving column `k` a list that holds its old ids plus `extra` adds exactly `extra` to the board-wide multiset. */
  lemma ExtendCounts(cols: seq<Column>, k: nat, extra: multiset<Id>, placed: seq<Id>)
    requires k < |cols|
    requires multiset(placed) == multiset(cols[k].taskIds) + extra
    ensures multiset(Flatten(Relist(cols, k, placed))) == multiset(Flatten(cols)) + extra
  {
    var after := multiset(Flatten(Relist(cols, k, placed)));
    var before := multiset(Flatten(cols));
    var old_ := multiset(cols[k].taskIds);
    FlattenUpdate(cols, k, cols[k].(taskIds := placed));
    forall y
      ensures after[y] == (before + extra)[y]
    {
      assert (after + old_)[y] == (before + old_ + extra)[y];
    }
  }

  /** Deleting column `k` removes exactly that column's ids from the board-wide multiset. */
  lemma FlattenRemoveAt(cols: seq<Column>, k: nat)
    requires k < |cols|
    ensures multiset(Flatten(cols[..k] + cols[k + 1..])) + multiset(cols[k].taskIds)
         == multiset(Flatten(cols))
  {
    var pre, rest, post := cols[..k], cols[k..], cols[k + 1..];
    assert cols == pre + rest;
    assert rest[1..] == post;
    FlattenConcat(pre, rest);
    FlattenConcat(pre, post);
    var fp, fk, fq := Flatten(pre), cols[k].taskIds, Flatten(post);
    assert Flatten(rest) == fk + fq;
    calc {
      multiset(Flatten(cols));
      multiset(fp + (fk + fq));
      multiset(fp) + multiset(fk) + multiset(fq);
      multiset(fp + fq) + multiset(fk);
    }
  }

  // ---------------------------------------------------------------------
  // Pruning every column's id list

  /** Two column lists with the same ids and names, position by position; their id lists may differ. */
  predicate SameHeads(a: seq<Column>, b: seq<Column>)
  {
    |a| == |b| && forall i :: 0 <= i < |a| ==> a[i].id == b[i].id && a[i].name == b[i].name
  }

  /** Keeping column ids and names is transitive. */
  lemma SameHeadsTrans(a: seq<Column>, b: seq<Column>, c: seq<Column>)
    requires SameHeads(a, b) && SameHeads(b, c)
    ensures SameHeads(a, c)
  {
  }

  /** Column lists with the same heads agree on `find` by id. */
  lemma FindColumnSameIds(a: seq<Column>, b: seq<Column>, id: Id)
    requires SameHeads(a, b)
    ensures FindColumn(a, id) == FindColumn(b, id)
  {
  }

  /** Every column keeps its id and name; its id list keeps only the ids satisfying `keep`. */
  function PruneColumns(cols: seq<Column>, keep: Id -> bool): (r: seq<Column>)
    ensures SameHeads(r, cols)
    ensures forall i :: 0 <= i < |cols| ==> r[i].taskIds == Filter(cols[i].taskIds, keep)
  {
    seq(|cols|, i requires 0 <= i < |cols| => cols[i].(taskIds := Filter(cols[i].taskIds, keep)))
  }

  /** Pruning each column is filtering the board-wide list. */
  lemma {:induction false} FlattenPrune(cols: seq<Column>, keep: Id -> bool)
    ensures Flatten(PruneColumns(cols, keep)) == Filter(Flatten(cols), keep)
  {
    if |cols| > 0 {
      var r := PruneColumns(cols, keep);
      assert r[1..] == PruneColumns(cols[1..], keep);
      FlattenPrune(cols[1..], keep);
      FilterConcat(cols[0].taskIds, Flatten(cols[1..]), keep);
    }
  }

  /** Pruning changes nothing when every listed id is kept. */
  lemma PruneNothing(cols: seq<Column>, keep: Id -> bool)
    requires forall x :: x in Flatten(cols) ==> keep(x)
    ensures PruneColumns(cols, keep) == cols
  {
    forall i | 0 <= i < |cols|
      ensures Filter(cols[i].taskIds, keep) == cols[i].taskIds
    {
      forall j | 0 <= j < |cols[i].taskIds|
        ensures keep(cols[i].taskIds[j])
      {
        InFlatten(cols, cols[i].taskIds[j]);
      }
    }
  }

  // ---------------------------------------------------------------------
  // Invariants

  /** No two tasks share an id. */
  ghost predicate UniqueTaskIds(tasks: seq<Task>)
  {
    forall i, j :: 0 <= i < j < |tasks| ==> tasks[i].id != tasks[j].id
  }

  /** Dropping the first task keeps the ids unique. */
  lemma TailUniqueIds(tasks: seq<Task>)
    requires UniqueTaskIds(tasks) && |tasks| > 0
    ensures UniqueTaskIds(tasks[1..])
  {
    var rest := tasks[1..];
    forall i, j | 0 <= i < j < |rest|
      ensures rest[i].id != rest[j].id
    {
      assert rest[i] == tasks[i + 1] && rest[j] == tasks[j + 1];
    }
  }

  /** A task whose id no task of `tail` carries can be put in front of `tail`. */
  lemma ConsUniqueIds(t: Task, tail: seq<Task>)
    requires UniqueTaskIds(tail)
    requires t.id !in TaskIds(tail)
    ensures UniqueTaskIds([t] + tail)
  {
    var r := [t] + tail;
    forall i, j | 0 <= i < j < |r|
      ensures r[i].id != r[j].id
    {
      assert r[j] == tail[j - 1];
      if i > 0 {
        assert r[i] == tail[i - 1];
      }
    }
  }

  /** A sub-list of tasks with unique ids has unique ids. */
  lemma {:induction false} FilterKeepsUniqueIds(tasks: seq<Task>, p: Task -> bool)
    requires UniqueTaskIds(tasks)
    ensures UniqueTaskIds(Filter(tasks, p))
  {
    if |tasks| > 0 {
      var rest := tasks[1..];
      TailUniqueIds(tasks);
      FilterKeepsUniqueIds(rest, p);
      var tail := Filter(rest, p);
      if p(tasks[0]) {
        assert Filter(tasks, p) == [tasks[0]] + tail;
        forall t | t in tail
          ensures t.id != tasks[0].id
        {
          var j :| 0 <= j < |rest| && rest[j] == t;
          assert t == tasks[j + 1];
        }
        ConsUniqueIds(tasks[0], tail);
      }
    }
  }

  /** No two columns share an id. */
  ghost predicate UniqueColumnIds(cols: seq<Column>)
  {
    forall i, j :: 0 <= i < j < |cols| ==> cols[i].id != cols[j].id
  }

  /** Every id listed in a column names an existing task. */
  ghost predicate NoDanglingIds(b: Board)
  {
    forall x :: x in Flatten(b.columns) ==> x in TaskIds(b.tasks)
  }

  /** Each id is listed at most once on the whole board. */
  ghost predicate DistinctPlacement(cols: seq<Column>)
  {
    forall x :: multiset(Flatten(cols))[x] <= 1
  }

  /** Every task is reachable from some column. */
  ghost predicate AllPlaced(b: Board)
  {
    forall t :: t in b.tasks ==> t.id in Flatten(b.columns)
  }

  ghost predicate Valid(b: Board)
  {
    && UniqueTaskIds(b.tasks)
    && UniqueColumnIds(b.columns)
    && NoDanglingIds(b)
    && DistinctPlacement(b.columns)
    && AllPlaced(b)
  }

  /**
    A board whose columns list exactly the ids a valid board lists, with
    the same tasks and distinct column ids, is valid too.
   */
  lemma SameListingValid(b: Board, r: Board)
    requires Valid(b)
    requires r.tasks == b.tasks
    requires UniqueColumnIds(r.columns)
    requires multiset(Flatten(r.columns)) == multiset(Flatten(b.columns))
    ensures Valid(r)
  {
    var m := multiset(Flatten(b.columns));
    forall x | x in Flatten(r.columns)
      ensures x in TaskIds(r.tasks)
    {
      assert m[x] > 0;
    }
    forall t | t in r.tasks
      ensures t.id in Flatten(r.columns)
    {
      assert m[t.id] > 0;
    }
  }

  /** An id listed in two different columns occurs at least twice on the board. */
  lemma TwoColumnsTwice(cols: seq<Column>, x: Id, lo: nat, hi: nat)
    requires lo < hi < |cols|
    requires x in cols[lo].taskIds && x in cols[hi].taskIds
    ensures multiset(Flatten(cols))[x] >= 2
  {
    var a := cols[..hi];
    var b := cols[hi..];
    assert cols == a + b;
    FlattenConcat(a, b);
    assert a[lo] == cols[lo];
    InFlatten(a, x);
    assert x in Flatten(a);
    assert Flatten(b) == b[0].taskIds + Flatten(b[1..]);
    assert x in Flatten(b);
    assert multiset(Flatten(cols)) == multiset(Flatten(a)) + multiset(Flatten(b));
  }

  /** Distinct placement means: an id sits in at most one column, and at most once there. */
  lemma DistinctPlacementMeaning(cols: seq<Column>, x: Id, i: nat, j: nat)
    requires DistinctPlacement(cols)
    requires i < |cols| && j < |cols|
    requires x in cols[i].taskIds && x in cols[j].taskIds
    ensures i == j
    ensures multiset(cols[i].taskIds)[x] == 1
  {
    if i < j {
      TwoColumnsTwice(cols, x, i, j);
    } else if j < i {
      TwoColumnsTwice(cols, x, j, i);
    } else {
      var pre := cols[..i];
      var post := cols[i + 1..];
      assert cols == pre + [cols[i]] + post;
      FlattenConcat(pre + [cols[i]], post);
      FlattenConcat(pre, [cols[i]]);
      FlattenSingle(cols[i]);
    }
  }
}

=== FILE: expiry.dfy ===
/**
  `expireOldTasks`: every task not on today's board is dropped for good,
  and every column forgets the ids of the dropped tasks. The current date
  (`new Date().toISOString().slice(0, 10)`) is a parameter. Also the day
  filter `render` applies to each column's list.
 */
module Expiry {
  import opened Common
  import opened Domain
  import Store
  import Text

  /** The surviving tasks are exactly those on today's board, in their original order. */
  function ExpireOldTasks(b: Board, today: string): (r: Board)
    ensures forall t :: t in r.tasks <==> t in b.tasks && OnDate(t, today)
    ensures IsSubseq(r.tasks, b.tasks)
    ensures SameHeads(r.columns, b.columns)
    ensures forall i :: 0 <= i < |b.columns| ==>
      && IsSubseq(r.columns[i].taskIds, b.columns[i].taskIds)
      && forall x :: x in r.columns[i].taskIds <==> x in b.columns[i].taskIds && x in TaskIds(r.tasks)
    ensures forall i, x :: 0 <= i < |b.columns| ==>
      multiset(r.columns[i].taskIds)[x] == if x in TaskIds(r.tasks) then multiset(b.columns[i].taskIds)[x] else 0
    ensures forall t :: multiset(r.tasks)[t] == if OnDate(t, today) then multiset(b.tasks)[t] else 0
    ensures NoDanglingIds(r)
  {
    var kept := Filter(b.tasks, OnDay(today));
    var valid := TaskIds(kept);
    var keep := InSet(valid);
    var cols := PruneColumns(b.columns, keep);
    FlattenPrune(b.columns, keep);
    FilterCounts(b.tasks, OnDay(today));
    forall i | 0 <= i < |b.columns| {
      FilterCounts(b.columns[i].taskIds, keep);
    }
    Board(kept, cols)
  }

  /** Expiry is idempotent: a second pass on the same day finds nothing left to drop. */
  lemma ExpireIdempotent(b: Board, today: string)
    ensures ExpireOldTasks(ExpireOldTasks(b, today), today) == ExpireOldTasks(b, today)
  {
    var once := ExpireOldTasks(b, today);
    var twice := ExpireOldTasks(once, today);
    assert twice.tasks == once.tasks;
    var valid := TaskIds(once.tasks);
    PruneNothing(once.columns, InSet(valid));
    assert twice.columns == PruneColumns(once.columns, InSet(valid));
  }

  /** Expiry keeps the board valid. */
  lemma ExpirePreservesValid(b: Board, today: string)
    requires Valid(b)
    ensures Valid(ExpireOldTasks(b, today))
  {
    var r := ExpireOldTasks(b, today);
    var kept := Filter(b.tasks, OnDay(today));
    FilterKeepsUniqueIds(b.tasks, OnDay(today));
    assert r.tasks == kept;
    var valid := TaskIds(kept);
    var keep := InSet(valid);
    FlattenPrune(b.columns, keep);
    FilterCounts(Flatten(b.columns), keep);
    assert r.columns == PruneColumns(b.columns, keep);
    forall t | t in r.tasks
      ensures t.id in Flatten(r.columns)
    {
      assert t.id in Flatten(b.columns);
      assert t.id in valid;
    }
  }

  /**
    `addTask` re-renders at once, and the render expires old tasks: a task
    added under a fresh id for a day other than today is gone from the
    board, tasks and columns alike, as soon as it is added.
   */
  lemma AddedOnOtherDayExpires(b: Board, text: string, columnId: Id, newId: Id, date: string, now: int, due: int, today: string)
    requires |b.columns| > 0
    requires !Text.IsBlank(text)
    requires date != "" && date != today
    requires newId !in TaskIds(b.tasks)
    ensures var r := ExpireOldTasks(Store.AddTask(b, text, columnId, newId, date, now, due), today);
      && newId !in TaskIds(r.tasks)
      && forall i :: 0 <= i < |r.columns| ==> newId !in r.columns[i].taskIds
  {
    var added := Store.AddTask(b, text, columnId, newId, date, now, due);
    var r := ExpireOldTasks(added, today);
    forall t | t in r.tasks
      ensures t.id != newId
    {
      assert t in added.tasks && OnDate(t, today);
      if t == added.tasks[0] {
        OnDateMeaning(t, today);
      } else {
        assert t in b.tasks;
      }
    }
  }

  /**
    What `render` lists in each column for `day`: the column's ids, in
    order, restricted to ids of tasks shown on that day.
   */
  function ColumnView(b: Board, day: string): (r: seq<seq<Id>>)
    ensures |r| == |b.columns|
    ensures forall k :: 0 <= k < |b.columns| ==>
      && IsSubseq(r[k], b.columns[k].taskIds)
      && forall x :: x in r[k] <==> x in b.columns[k].taskIds && exists t :: t in b.tasks && t.id == x && OnDate(t, day)
    ensures forall k, x :: 0 <= k < |b.columns| && x in r[k] ==> multiset(r[k])[x] == multiset(b.columns[k].taskIds)[x]
  {
    var shown := set t | t in b.tasks && OnDate(t, day) :: t.id;
    var keep := InSet(shown);
    forall k | 0 <= k < |b.columns| {
      FilterCounts(b.columns[k].taskIds, keep);
    }
    seq(|b.columns|, k requires 0 <= k < |b.columns| => Filter(b.columns[k].taskIds, keep))
  }

  /** Once expired for today, today's view hides nothing: every column shows its whole list. */
  lemma ExpiredViewShowsAll(b: Board, today: string)
    ensures var r := ExpireOldTasks(b, today);
      forall k :: 0 <= k < |r.columns| ==> ColumnView(r, today)[k] == r.columns[k].taskIds
  {
    var r := ExpireOldTasks(b, today);
    var shown := set t | t in r.tasks && OnDate(t, today) :: t.id;
    var keep := InSet(shown);
    forall k | 0 <= k < |r.columns|
      ensures ColumnView(r, today)[k] == r.columns[k].taskIds
    {
      var ids := r.columns[k].taskIds;
      forall i | 0 <= i < |ids|
        ensures keep(ids[i])
      {
        assert ids[i] in TaskIds(r.tasks);
      }
      assert ColumnView(r, today)[k] == Filter(ids, keep);
    }
  }
}

=== FILE: html.dfy ===
/**
  `escapeHtml`: the four characters `&`, `<`, `>` and `"` are replaced by
  their named character references; every other character (the single
  quote included) is copied unchanged.
 */
module Html {

  predicate IsSpecial(c: char)
  {
    c == '&' || c == '<' || c == '>' || c == '"'
  }

  function EscapeChar(c: char): (r: string)
    ensures |r| >= 1
    ensures !IsSpecial(c) ==> r == [c]
  {
    match c
    case '&' => "&amp;"
    case '<' => "&lt;"
    case '>' => "&gt;"
    case '"' => "&quot;"
    case _ => [c]
  }

  /** The escaped text never contains a tag or attribute delimiter and is never shorter. */
  function EscapeHtml(s: string): (r: string)
    ensures |r| >= |s|
    ensures forall i :: 0 <= i < |r| ==> r[i] != '<' && r[i] != '>' && r[i] != '"'
  {
    if |s| == 0 then ""
    else
      var head := EscapeChar(s[0]);
      var tail := EscapeHtml(s[1..]);
      assert forall i :: |head| <= i < |head| + |tail| ==> (head + tail)[i] == tail[i - |head|];
      head + tail
  }

  /** Decodes the four references `EscapeHtml` produces; anything else is copied. */
  function UnescapeHtml(s: string): string
    decreases |s|
  {
    if |s| == 0 then ""
    else if |s| >= 5 && s[..5] == "&amp;" then "&" + UnescapeHtml(s[5..])
    else if |s| >= 4 && s[..4] == "&lt;" then "<" + UnescapeHtml(s[4..])
    else if |s| >= 4 && s[..4] == "&gt;" then ">" + UnescapeHtml(s[4..])
    else if |s| >= 6 && s[..6] == "&quot;" then "\"" + UnescapeHtml(s[6..])
    else [s[0]] + UnescapeHtml(s[1..])
  }

  /** Decoding one escaped character in front of `rest` yields that character in front of the decoded rest. */
  lemma UnescapeStep(c: char, rest: string)
    ensures UnescapeHtml(EscapeChar(c) + rest) == [c] + UnescapeHtml(rest)
  {
    var e := EscapeChar(c) + rest;
    if c == '&' {
      assert e[..5] == "&amp;" && e[5..] == rest;
    } else if c == '<' {
      assert e[..4] == "&lt;" && e[4..] == rest;
      assert |e| >= 5 ==> e[..5][1] == 'l';
    } else if c == '>' {
      assert e[..4] == "&gt;" && e[4..] == rest;
      assert |e| >= 5 ==> e[..5][1] == 'g';
      assert e[..4][1] == 'g';
    } else if c == '"' {
      assert e[..6] == "&quot;" && e[6..] == rest;
      assert e[..5][1] == 'q' && e[..4][1] == 'q';
    } else {
      assert e[0] == c && e[1..] == rest;
      assert |e| >= 4 ==> e[..4][0] == c;
      assert |e| >= 5 ==> e[..5][0] == c;
      assert |e| >= 6 ==> e[..6][0] == c;
    }
  }

  /** Escaping loses nothing: decoding the escaped text gives back the original. */
  lemma {:induction false} EscapeRoundTrip(s: string)
    ensures UnescapeHtml(EscapeHtml(s)) == s
  {
    if |s| > 0 {
      UnescapeStep(s[0], EscapeHtml(s[1..]));
      EscapeRoundTrip(s[1..]);
      assert [s[0]] + s[1..] == s;
    }
  }

  /** Escaping is the identity exactly on text free of the four special characters. */
  lemma {:induction false} EscapeIdentityIff(s: string)
    ensures EscapeHtml(s) == s <==> forall i :: 0 <= i < |s| ==> !IsSpecial(s[i])
  {
    if |s| > 0 {
      EscapeIdentityIff(s[1..]);
      var head := EscapeChar(s[0]);
      var tail := EscapeHtml(s[1..]);
      if IsSpecial(s[0]) {
        assert |head| > 1;
        assert |EscapeHtml(s)| > |s|;
      } else {
        assert EscapeHtml(s) == [s[0]] + tail;
        assert s == [s[0]] + s[1..];
        if EscapeHtml(s) == s {
          assert tail == s[1..];
        }
        assert (forall i :: 0 <= i < |s| ==> !IsSpecial(s[i]))
           <==> (forall i :: 0 <= i < |s[1..]| ==> !IsSpecial(s[1..][i]));
      }
    }
  }
}

=== FILE: load.dfy ===
/**
  Start-up and persistence: `load` reads the saved tasks, columns,
  selected date and background images, and falls back to the sample board
  whenever the saved tasks or columns are unusable; `save` writes the same
  keys back. Storage access and JSON are abstracted as already-decoded
  values, and `uid()`, `Date.now()` and today's date are parameters.
 */
module Persistence {
  import opened Common
  import opened Text
  import opened Domain
  import Calendar

  /**
    One storage key after `getItem` and `JSON.parse`. `Absent` stands for
    a missing key and for an empty string alike (both are falsy, so the
    source substitutes its default); `Malformed` is a value `JSON.parse`
    rejects.
   */
  datatype Stored<T> = Absent | Malformed | Parsed(value: T)

  /** The seven `uid()` results `sampleData` draws: four task ids, then three column ids. */
  datatype SeedIds = SeedIds(t1: Id, t2: Id, t3: Id, t4: Id, todo: Id, doing: Id, done: Id)

  /** What `uid()` is trusted to deliver: no two seed tasks and no two seed columns share an id. */
  predicate DistinctSeedIds(s: SeedIds)
  {
    && s.t1 != s.t2 && s.t1 != s.t3 && s.t1 != s.t4
    && s.t2 != s.t3 && s.t2 != s.t4 && s.t3 != s.t4
    && s.todo != s.doing && s.todo != s.done && s.doing != s.done
  }

  /**
    The sample board: "Todo" lists the first and third task, "Doing" the
    second, "Done" the fourth, which is the only completed one. No sample
    task carries a date, so it shows on every day.
   */
  function SampleData(ids: SeedIds, now: int): (r: Board)
    ensures |r.tasks| == 4 && |r.columns| == 3
    ensures forall t :: t in r.tasks ==> t.date.None? && t.dueAt.None? && t.createdAt == now
    ensures r.columns[0].name == "Todo" && r.columns[1].name == "Doing" && r.columns[2].name == "Done"
  {
    var t1 := Task(ids.t1, "Plan the day", false, None, now, None);
    var t2 := Task(ids.t2, "Design beautiful UI", false, None, now, None);
    var t3 := Task(ids.t3, "Drag to reorder tasks", false, None, now, None);
    var t4 := Task(ids.t4, "Ship it", true, None, now, None);
    Board([t1, t2, t3, t4],
          [Column(ids.todo, "Todo", [t1.id, t3.id]),
           Column(ids.doing, "Doing", [t2.id]),
           Column(ids.done, "Done", [t4.id])])
  }

  /** A task is completed exactly when some done-like column lists it. */
  ghost predicate CompletionAgrees(b: Board)
  {
    forall t :: t in b.tasks ==>
      (t.completed <==> exists k :: 0 <= k < |b.columns| && IsDoneName(b.columns[k].name) && t.id in b.columns[k].taskIds)
  }

  /** The sample board lists its task ids in the order first, third, second, fourth. */
  lemma SampleDataFlatten(ids: SeedIds, now: int)
    ensures Flatten(SampleData(ids, now).columns) == [ids.t1, ids.t3, ids.t2, ids.t4]
  {
    var c := SampleData(ids, now).columns;
    assert c[1..][1..][1..] == [];
    assert Flatten(c[1..][1..]) == [ids.t4];
    assert Flatten(c[1..]) == [ids.t2, ids.t4];
  }

  /** With distinct ids the sample board is valid. */
  lemma SampleDataValid(ids: SeedIds, now: int)
    requires DistinctSeedIds(ids)
    ensures Valid(SampleData(ids, now))
  {
    SampleDataPlacement(ids, now);
    SampleDataDistinct(ids, now);
  }

  lemma SampleDataPlacement(ids: SeedIds, now: int)
    ensures NoDanglingIds(SampleData(ids, now)) && AllPlaced(SampleData(ids, now))
  {
    var b := SampleData(ids, now);
    SampleDataFlatten(ids, now);
    assert TaskIds(b.tasks) == {ids.t1, ids.t2, ids.t3, ids.t4};
  }

  lemma SampleDataDistinct(ids: SeedIds, now: int)
    requires DistinctSeedIds(ids)
    ensures UniqueTaskIds(SampleData(ids, now).tasks) && UniqueColumnIds(SampleData(ids, now).columns)
    ensures DistinctPlacement(SampleData(ids, now).columns)
  {
    var flat := Flatten(SampleData(ids, now).columns);
    SampleDataFlatten(ids, now);
    forall x
      ensures multiset(flat)[x] <= 1
    {
      assert multiset(flat) == multiset{ids.t1, ids.t3, ids.t2, ids.t4};
    }
  }

  /** In the sample board only the task in "Done" is completed. */
  lemma SampleDataCompletion(ids: SeedIds, now: int)
    requires DistinctSeedIds(ids)
    ensures CompletionAgrees(SampleData(ids, now))
  {
    var b := SampleData(ids, now);
    SampleColumnNames();
    forall t | t in b.tasks
      ensures t.completed <==> exists k :: 0 <= k < |b.columns| && IsDoneName(b.columns[k].name) && t.id in b.columns[k].taskIds
    {
      if t.completed {
        assert IsDoneName(b.columns[2].name) && t.id in b.columns[2].taskIds;
      }
    }
  }

  /** Of the sample column names only "Done" is done-like. */
  lemma SampleColumnNames()
    ensures !IsDoneName("Todo") && !IsDoneName("Doing") && IsDoneName("Done")
  {
    assert Lower("Todo") == "todo";
    assert Lower("Doing") == "doing";
    assert Lower("Done") == "done";
  }

  /** The persisted state `save` writes and `load` reads. */
  datatype Storage = Storage(
    tasks: Stored<seq<Task>>,
    columns: Stored<seq<Column>>,
    selectedDate: Option<string>,
    images: Stored<map<string, string>>)

  /** The state `load` establishes: the board, the selected day, the calendar cursor and the background images by day. */
  datatype Snapshot = Snapshot(board: Board, selectedDate: string, cursor: Calendar.Cursor, images: map<string, string>)

  /** The saved board is used only when both lists parse and neither is empty. */
  predicate UsableBoard(st: Storage)
  {
    st.tasks.Parsed? && st.columns.Parsed? && |st.tasks.value| > 0 && |st.columns.value| > 0
  }

  /**
    `load`: the saved board when it is usable, otherwise the sample board
    (an empty list, a missing key or a parse failure all lead there); the
    saved date unless it is missing or empty, otherwise today; the cursor
    on today's month; the saved images unless missing or unparseable.
   */
  function Load(st: Storage, seed: SeedIds, now: int, isoToday: string, year: int, month: int): (r: Snapshot)
    requires 0 <= month <= 11
    ensures |r.board.tasks| > 0 && |r.board.columns| > 0
    ensures UsableBoard(st) ==> r.board == Board(st.tasks.value, st.columns.value)
    ensures !UsableBoard(st) ==> r.board == SampleData(seed, now)
    ensures st.selectedDate.Some? && st.selectedDate.value != "" ==> r.selectedDate == st.selectedDate.value
    ensures st.selectedDate.None? || st.selectedDate.value == "" ==> r.selectedDate == isoToday
    ensures Calendar.ValidMonth(r.cursor) && r.cursor == Calendar.Cursor(year, month)
    ensures r.images == if st.images.Parsed? then st.images.value else map[]
  {
    var board := if UsableBoard(st) then Board(st.tasks.value, st.columns.value) else SampleData(seed, now);
    var images := if st.images.Parsed? then st.images.value else map[];
    Snapshot(board, DateOr(st.selectedDate, isoToday), Calendar.Cursor(year, month), images)
  }

  /**
    `save`: every key is written, so a later load finds the board usable
    exactly when it has tasks and columns, and then reads back that very
    board; the selected day reads back unless it is empty (then today's
    date takes its place), and the images read back as they were. The
    cursor is not persisted.
   */
  function Save(s: Snapshot): (st: Storage)
    ensures UsableBoard(st) <==> |s.board.tasks| > 0 && |s.board.columns| > 0
    ensures UsableBoard(st) ==> Board(st.tasks.value, st.columns.value) == s.board
    ensures forall today :: DateOr(st.selectedDate, today) == if s.selectedDate != "" then s.selectedDate else today
    ensures st.images == Parsed(s.images)
  {
    Storage(Parsed(s.board.tasks), Parsed(s.board.columns), Some(s.selectedDate), Parsed(s.images))
  }

  /**
    Saving then loading restores the board, the selected day and the
    images, provided the board is non-empty and a day is selected; the
    cursor returns to the current month.
   */
  lemma SaveLoadRoundTrip(s: Snapshot, seed: SeedIds, now: int, isoToday: string, year: int, month: int)
    requires 0 <= month <= 11
    requires |s.board.tasks| > 0 && |s.board.columns| > 0 && s.selectedDate != ""
    ensures var r := Load(Save(s), seed, now, isoToday, year, month);
      r.board == s.board && r.selectedDate == s.selectedDate && r.images == s.images
  {
  }

  /**
    A board whose every task was removed or expired is not restored as
    empty: the next load replaces it by the sample board, columns and all.
   */
  lemma EmptyBoardReseeds(s: Snapshot, seed: SeedIds, now: int, isoToday: string, year: int, month: int)
    requires 0 <= month <= 11
    requires |s.board.tasks| == 0
    ensures Load(Save(s), seed, now, isoToday, year, month).board == SampleData(seed, now)
    ensures |s.board.columns| > 0 ==> Load(Save(s), seed, now, isoToday, year, month).board != s.board
  {
  }

  /** Whatever storage holds, the loaded board is valid when the saved one is, or when the seed ids are distinct. */
  lemma LoadValid(st: Storage, seed: SeedIds, now: int, isoToday: string, year: int, month: int)
    requires 0 <= month <= 11
    requires UsableBoard(st) ==> Valid(Board(st.tasks.value, st.columns.value))
    requires !UsableBoard(st) ==> DistinctSeedIds(seed)
    ensures Valid(Load(st, seed, now, isoToday, year, month).board)
  {
    if !UsableBoard(st) {
      SampleDataValid(seed, now);
    }
  }
}

=== FILE: reconcile.dfy ===
/**
  `persistAndSync`, the drag-and-drop reconciliation: after a drop the view
  reports, list by list, the column id and the task ids now shown in it.
  Each report naming an existing column overwrites that column's id list
  verbatim and sets the completion of every listed task from the column's
  name. Reports are applied in order; reading them out of the page is not
  part of the model.
 */
module Reconcile {
  import opened Common
  import opened Domain
  import opened Store

  datatype Report = Report(columnId: Id, taskIds: seq<Id>)

  /** Sets the completion of the first task with `id`, as `tasks.find` then assignment does. */
  function MarkFirst(tasks: seq<Task>, id: Id, done: bool): (r: seq<Task>)
    ensures |r| == |tasks|
    ensures forall i :: 0 <= i < |tasks| ==>
      r[i] == if tasks[i].id == id && FirstOfId(tasks, i) then tasks[i].(completed := done) else tasks[i]
  {
    match FindTask(tasks, id)
    case None => tasks
    case Some(i) => tasks[i := tasks[i].(completed := done)]
  }

  /**
    Marks every listed id in turn. Only the first task carrying a listed id
    changes, and only its completion; an id naming no task changes nothing.
   */
  function MarkAll(tasks: seq<Task>, ids: seq<Id>, done: bool): (r: seq<Task>)
    ensures |r| == |tasks|
    ensures forall i :: 0 <= i < |tasks| ==>
      r[i] == if tasks[i].id in ids && FirstOfId(tasks, i) then tasks[i].(completed := done) else tasks[i]
    decreases |ids|
  {
    if |ids| == 0 then tasks
    else
      var once := MarkFirst(tasks, ids[0], done);
      assert forall i :: 0 <= i < |tasks| ==> once[i].id == tasks[i].id;
      assert forall i :: 0 <= i < |tasks| ==> (FirstOfId(once, i) <==> FirstOfId(tasks, i));
      assert forall x :: x in ids <==> x == ids[0] || x in ids[1..];
      MarkAll(once, ids[1..], done)
  }

  /**
    One report. An unknown column id is skipped. Otherwise that column's
    list becomes the reported list and each listed task's completion
    becomes "the column is done-like".
   */
  function ApplyReport(b: Board, rep: Report): (r: Board)
    ensures FindColumn(b.columns, rep.columnId).None? ==> r == b
    ensures FindColumn(b.columns, rep.columnId).Some? ==>
      var k := FindColumn(b.columns, rep.columnId).value;
      && r.columns == Relist(b.columns, k, rep.taskIds)
      && |r.tasks| == |b.tasks|
      && forall j :: 0 <= j < |b.tasks| ==>
           r.tasks[j] == if b.tasks[j].id in rep.taskIds && FirstOfId(b.tasks, j)
                         then b.tasks[j].(completed := IsDoneName(b.columns[k].name))
                         else b.tasks[j]
  {
    match FindColumn(b.columns, rep.columnId)
    case None => b
    case Some(k) =>
      var col := b.columns[k];
      Board(MarkAll(b.tasks, rep.taskIds, IsDoneName(col.name)), Relist(b.columns, k, rep.taskIds))
  }

  /**
    All reports, in order. Only `completed` flags and column id lists
    change: task ids, column ids and column names stay where they were.
   */
  function Reconcile(b: Board, reports: seq<Report>): (r: Board)
    ensures |r.tasks| == |b.tasks|
    ensures forall j :: 0 <= j < |b.tasks| ==> r.tasks[j] == b.tasks[j].(completed := r.tasks[j].completed)
    ensures SameHeads(r.columns, b.columns)
    decreases |reports|
  {
    if |reports| == 0 then b
    else ApplyReport(Reconcile(b, reports[..|reports| - 1]), reports[|reports| - 1])
  }

  /** The outcome a report promises: its column lists exactly its ids, and their tasks' completion follows the column. */
  ghost predicate Honoured(b: Board, r: Board, rep: Report)
    requires |r.columns| == |b.columns|
  {
    match FindColumn(b.columns, rep.columnId)
    case None => true
    case Some(k) =>
      && r.columns[k].taskIds == rep.taskIds
      && forall j :: 0 <= j < |r.tasks| && r.tasks[j].id in rep.taskIds ==>
           r.tasks[j].completed == IsDoneName(r.columns[k].name)
  }

  /**
    Column membership becomes the source of truth for completion: when the
    reports name distinct columns and no task id appears in two of them,
    every report is honoured by the reconciled board.
   */
  lemma {:induction false} ReconcileHonoursReports(b: Board, reports: seq<Report>)
    requires UniqueTaskIds(b.tasks)
    requires forall i, j :: 0 <= i < j < |reports| ==> reports[i].columnId != reports[j].columnId
    requires forall i, j, x :: 0 <= i < j < |reports| && x in reports[i].taskIds ==> x !in reports[j].taskIds
    ensures forall i :: 0 <= i < |reports| ==> Honoured(b, Reconcile(b, reports), reports[i])
  {
    var n := |reports|;
    if n > 0 {
      var init := reports[..n - 1];
      var last := reports[n - 1];
      ReconcileHonoursReports(b, init);
      var prev := Reconcile(b, init);
      var r := Reconcile(b, reports);
      assert r == ApplyReport(prev, last);
      FindColumnSameIds(prev.columns, b.columns, last.columnId);
      assert forall j :: 0 <= j < |prev.tasks| ==> FirstOfId(prev.tasks, j) by {
        forall j, i | 0 <= i < j < |prev.tasks|
          ensures prev.tasks[i].id != prev.tasks[j].id
        {
          assert prev.tasks[i].id == b.tasks[i].id && prev.tasks[j].id == b.tasks[j].id;
        }
      }
      forall i | 0 <= i < n
        ensures Honoured(b, r, reports[i])
      {
        if i < n - 1 {
          assert init[i] == reports[i];
          assert Honoured(b, prev, reports[i]);
          KeptByLaterReport(b, prev, last, reports[i]);
        }
      }
    }
  }

  /** A report stays honoured when a later report names another column and other task ids. */
  lemma KeptByLaterReport(b: Board, prev: Board, last: Report, rep: Report)
    requires SameHeads(prev.columns, b.columns)
    requires rep.columnId != last.columnId
    requires forall x :: x in rep.taskIds ==> x !in last.taskIds
    requires Honoured(b, prev, rep)
    ensures |ApplyReport(prev, last).columns| == |b.columns|
    ensures Honoured(b, ApplyReport(prev, last), rep)
  {
    FindColumnSameIds(prev.columns, b.columns, last.columnId);
    var r := ApplyReport(prev, last);
    match FindColumn(b.columns, rep.columnId)
    case None =>
    case Some(k) =>
      match FindColumn(b.columns, last.columnId)
      case None =>
      case Some(k') =>
        assert k != k';
        assert r.columns[k] == prev.columns[k];
  }

  /** A column whose id no report names keeps its list. */
  lemma {:induction false} UnreportedColumnKept(b: Board, reports: seq<Report>, k: nat)
    requires k < |b.columns|
    requires forall i :: 0 <= i < |reports| ==> reports[i].columnId != b.columns[k].id
    ensures k < |Reconcile(b, reports).columns| && Reconcile(b, reports).columns[k] == b.columns[k]
  {
    var n := |reports|;
    if n > 0 {
      var init := reports[..n - 1];
      var last := reports[n - 1];
      assert forall i :: 0 <= i < n - 1 ==> init[i] == reports[i];
      UnreportedColumnKept(b, init, k);
      var prev := Reconcile(b, init);
      match FindColumn(prev.columns, last.columnId)
      case None =>
      case Some(k') =>
        assert prev.columns[k'].id == last.columnId;
        assert k' != k;
    }
  }

  /** A task whose id no report lists keeps its completion (and everything else). */
  lemma {:induction false} UnlistedTaskKept(b: Board, reports: seq<Report>, j: nat)
    requires j < |b.tasks|
    requires forall i :: 0 <= i < |reports| ==> b.tasks[j].id !in reports[i].taskIds
    ensures j < |Reconcile(b, reports).tasks| && Reconcile(b, reports).tasks[j] == b.tasks[j]
  {
    var n := |reports|;
    if n > 0 {
      var init := reports[..n - 1];
      var last := reports[n - 1];
      assert forall i :: 0 <= i < n - 1 ==> init[i] == reports[i];
      UnlistedTaskKept(b, init, j);
    }
  }

  /**
    A drop touching a done-like and a todo-like column: the first lists
    exactly its reported ids and completes their tasks; the second lists
    its own and reopens theirs.
   */
  lemma DoneAndTodoReports(b: Board, kd: nat, kt: nat, doneIds: seq<Id>, todoIds: seq<Id>)
    requires UniqueTaskIds(b.tasks) && UniqueColumnIds(b.columns)
    requires kd < |b.columns| && kt < |b.columns| && kd != kt
    requires IsDoneName(b.columns[kd].name) && IsTodoName(b.columns[kt].name)
    requires forall x :: x in doneIds ==> x !in todoIds
    ensures var r := Reconcile(b, [Report(b.columns[kd].id, doneIds), Report(b.columns[kt].id, todoIds)]);
      && |r.columns| == |b.columns|
      && r.columns[kd].taskIds == doneIds && r.columns[kt].taskIds == todoIds
      && forall j :: 0 <= j < |r.tasks| ==>
           (r.tasks[j].id in doneIds ==> r.tasks[j].completed) && (r.tasks[j].id in todoIds ==> !r.tasks[j].completed)
  {
    var reports := [Report(b.columns[kd].id, doneIds), Report(b.columns[kt].id, todoIds)];
    var r := Reconcile(b, reports);
    PairOfReports(reports[0], reports[1]);
    ReconcileHonoursReports(b, reports);
    FindOwnColumn(b.columns, kd);
    FindOwnColumn(b.columns, kt);
    DoneTodoDisjoint(b.columns[kt].name);
    assert Honoured(b, r, reports[0]);
    assert Honoured(b, r, reports[1]);
  }

  /** Two reports on different columns with no task id in common meet the conditions of `ReconcileHonoursReports`. */
  lemma PairOfReports(first: Report, second: Report)
    requires first.columnId != second.columnId
    requires forall x :: x in first.taskIds ==> x !in second.taskIds
    ensures var reports := [first, second];
      && (forall i, j :: 0 <= i < j < |reports| ==> reports[i].columnId != reports[j].columnId)
      && (forall i, j, x :: 0 <= i < j < |reports| && x in reports[i].taskIds ==> x !in reports[j].taskIds)
  {
  }

  /**
    Reconciliation does not keep the board valid: the page reports only the
    ids it shows for the selected day, so a report can leave out a task the
    column held, and that task is then listed nowhere.
   */
  lemma ReconcileMayUnlistTask()
    ensures var b := Board([Task("a", "write", false, None, 0, None)], [Column("c", "Todo", ["a"])]);
      && Valid(b)
      && !Valid(Reconcile(b, [Report("c", [])]))
  {
    var b := Board([Task("a", "write", false, None, 0, None)], [Column("c", "Todo", ["a"])]);
    assert Flatten(b.columns) == ["a"];
    var r := Reconcile(b, [Report("c", [])]);
    assert r.columns == [Column("c", "Todo", [])];
    assert Flatten(r.columns) == [];
    assert b.tasks[0] in r.tasks;
  }
}

=== FILE: relative_time.dfy ===
/**
  `formatRelativeTime`: a signed millisecond distance rendered as
  "in 5 mins" / "3 hrs ago" / "in moments". The source rounds with
  `Math.round` on non-negative quotients; for an integer `x` and an even
  divisor `k` that is `(x + k / 2) / k` in integer arithmetic.
 */
module RelativeTime {
  import opened Text

  function Abs(x: int): nat
  {
    if x < 0 then -x else x
  }

  /** `Math.round(x / k)` for `x >= 0`: the integer nearest to `x / k`, halves rounded up. */
  function RoundDiv(x: nat, k: nat): (r: nat)
    requires k > 0 && k % 2 == 0
    ensures 2 * k * r <= 2 * x + k < 2 * k * r + 2 * k
  {
    var r := (x + k / 2) / k;
    assert k * r <= x + k / 2 < k * r + k;
    r
  }

  /** The unit a distance is shown in, with its rounded count. */
  datatype Span = Moments | Minutes(count: nat) | Hours(count: nat) | Days(count: nat)

  /** Seconds, minutes, hours and days are each rounded from the previous rounded unit. */
  function Bucket(abs: nat): (r: Span)
    ensures r.Moments? <==> abs < 44_500
    ensures r.Minutes? <==> 44_500 <= abs < 2_669_500
    ensures r.Hours? <==> 2_669_500 <= abs < 127_769_500
    ensures r.Minutes? ==> 1 <= r.count <= 44
    ensures r.Hours? ==> 1 <= r.count <= 35
    ensures r.Days? ==> r.count >= 2
    ensures r.Minutes? ==> -30_500 <= 60_000 * r.count - abs <= 30_500
    ensures r.Hours? ==> -1_830_500 <= 3_600_000 * r.count - abs <= 1_830_500
    ensures r.Days? ==> -45_030_500 <= 86_400_000 * r.count - abs <= 45_030_500
  {
    var s := RoundDiv(abs, 1000);
    var m := RoundDiv(s, 60);
    var h := RoundDiv(m, 60);
    var d := RoundDiv(h, 24);
    if s < 45 then Moments
    else if m < 45 then Minutes(m)
    else if h < 36 then Hours(h)
    else Days(d)
  }

  function Counted(n: nat, unit: string): string
  {
    NatToString(n) + " " + unit + (if n != 1 then "s" else "")
  }

  function SpanText(sp: Span): string
  {
    match sp
    case Moments => "moments"
    case Minutes(n) => Counted(n, "min")
    case Hours(n) => Counted(n, "hr")
    case Days(n) => Counted(n, "day")
  }

  /** The rendered body: "in " is prefixed for non-negative distances and " ago" appended otherwise. */
  function FormatRelativeTime(deltaMs: int): (r: string)
    ensures (|r| >= 3 && r[..3] == "in ") <==> deltaMs >= 0
    ensures (|r| >= 4 && r[|r| - 4..] == " ago") <==> deltaMs < 0
    ensures (r == "in moments" || r == "moments ago") <==> Abs(deltaMs) < 44_500
  {
    var text := SpanText(Bucket(Abs(deltaMs)));
    SpanTextShape(Bucket(Abs(deltaMs)));
    if deltaMs >= 0 then
      var r := "in " + text;
      assert r[|r| - 1] == text[|text| - 1];
      assert |r| >= 4 ==> r[|r| - 4..][3] == r[|r| - 1];
      assert r != "moments ago";
      r
    else
      var r := text + " ago";
      assert r[0] == text[0];
      assert |r| >= 3 ==> r[..3][0] == r[0];
      assert r[|r| - 4..] == " ago";
      assert r != "in moments";
      r
  }

  /** Only `Moments` reads "moments"; every other body starts with a digit; every body ends in 's', 'n', 'r' or 'y'. */
  lemma SpanTextShape(sp: Span)
    ensures var t := SpanText(sp);
      && |t| >= 4
      && (sp.Moments? || '0' <= t[0] <= '9')
      && t[|t| - 1] in {'s', 'n', 'r', 'y'}
      && (t == "moments" <==> sp.Moments?)
  {
    match sp
    case Moments =>
    case Minutes(n) => CountedShape(n, "min");
    case Hours(n) => CountedShape(n, "hr");
    case Days(n) => CountedShape(n, "day");
  }

  lemma CountedShape(n: nat, unit: string)
    requires |unit| >= 2
    ensures var t := Counted(n, unit);
      && |t| >= 4
      && '0' <= t[0] <= '9'
      && t[|t| - 1] == (if n != 1 then 's' else unit[|unit| - 1])
  {
    var digits := NatToString(n);
    assert Counted(n, unit)[0] == digits[0];
  }

  /** The unit carries a plural "s" exactly when its count is not one. */
  lemma PluralIff(sp: Span)
    requires !sp.Moments?
    ensures var t := SpanText(sp); t[|t| - 1] == 's' <==> sp.count != 1
  {
    match sp
    case Minutes(n) => CountedShape(n, "min");
    case Hours(n) => CountedShape(n, "hr");
    case Days(n) => CountedShape(n, "day");
  }

  /** A past and a future distance of the same size share one body. */
  lemma SignOnlyChangesAffix(d: nat)
    requires d > 0
    ensures exists body :: FormatRelativeTime(d) == "in " + body && FormatRelativeTime(-(d as int)) == body + " ago"
  {
    var body := SpanText(Bucket(d));
    assert Abs(-(d as int)) == d;
    assert FormatRelativeTime(d) == "in " + body;
  }

  /** Double rounding: 89.5 s is nearer one minute than two, yet it is shown as two. */
  lemma DoubleRoundingExample()
    ensures Bucket(89_500) == Minutes(2)
    ensures 2 * 89_500 < 3 * 60_000
  {
  }
}

=== FILE: store.dfy ===
/**
  The task operations of the board: `moveTaskToColumn`, `addTask`,
  `removeTask`, `toggleTask` and `updateTask`. Each is a pure function of
  the board it starts from, kept apart from the expiry the following
  render runs; `uid()`, `Date.now()` and the due-time computation are
  supplied by the caller.
 */
module Store {
  import opened Common
  import opened Text
  import opened Domain

  // ---------------------------------------------------------------------
  // Removing an id from every column

  /** Every occurrence of `id` is dropped from every column; all other ids keep their order. */
  function StripId(cols: seq<Column>, id: Id): (r: seq<Column>)
    ensures SameHeads(r, cols)
    ensures forall i :: 0 <= i < |cols| ==>
      && IsSubseq(r[i].taskIds, cols[i].taskIds)
      && forall x :: x in r[i].taskIds <==> x in cols[i].taskIds && x != id
  {
    PruneColumns(cols, OtherId(id))
  }

  /** Stripping removes exactly the occurrences of `id` from the board-wide multiset of listed ids. */
  lemma StripIdCounts(cols: seq<Column>, id: Id)
    ensures multiset(Flatten(StripId(cols, id))) == multiset(Flatten(cols))[id := 0]
  {
    FlattenPrune(cols, OtherId(id));
    FilterCounts(Flatten(cols), OtherId(id));
    var after := multiset(Flatten(StripId(cols, id)));
    var before := multiset(Flatten(cols));
    forall x
      ensures after[x] == before[id := 0][x]
    {
    }
  }

  /** Stripping an id no column lists changes nothing. */
  lemma StripIdNothing(cols: seq<Column>, id: Id)
    ensures id !in Flatten(cols) ==> StripId(cols, id) == cols
  {
    if id !in Flatten(cols) {
      PruneNothing(cols, OtherId(id));
    }
  }

  /** With unique column ids, finding a column by its own id finds that column. */
  lemma FindOwnColumn(cols: seq<Column>, k: nat)
    requires UniqueColumnIds(cols)
    requires k < |cols|
    ensures FindColumn(cols, cols[k].id) == Some(k)
  {
  }

  // ---------------------------------------------------------------------
  // moveTaskToColumn

  /** The id list with `id` added at the head (`Top`) or at the tail (`Bottom`). */
  function Place(ids: seq<Id>, id: Id, pos: Position): (r: seq<Id>)
    ensures multiset(r) == multiset(ids) + multiset{id}
    ensures |r| == |ids| + 1
    ensures pos == Top ==> r[0] == id && r[1..] == ids
    ensures pos == Bottom ==> r[|ids|] == id && r[..|ids|] == ids
  {
    if pos == Bottom then ids + [id] else [id] + ids
  }

  /** `moveTaskToColumn`: the id leaves every column and re-enters the column named `columnId`, if any. */
  function MoveTaskToColumn(b: Board, taskId: Id, columnId: Id, pos: Position): (r: Board)
    ensures r.tasks == b.tasks
    ensures SameHeads(r.columns, b.columns)
  {
    var stripped := StripId(b.columns, taskId);
    match FindColumn(stripped, columnId)
    case None => b.(columns := stripped)
    case Some(k) =>
      var cols := Relist(stripped, k, Place(stripped[k].taskIds, taskId, pos));
      SameHeadsTrans(cols, stripped, b.columns);
      b.(columns := cols)
  }

  /**
    After a move the id is listed exactly once on the board when the target
    column exists and not at all otherwise; every other id keeps its count.
   */
  lemma MoveTaskCounts(b: Board, taskId: Id, columnId: Id, pos: Position)
    ensures multiset(Flatten(MoveTaskToColumn(b, taskId, columnId, pos).columns))
         == multiset(Flatten(b.columns))[taskId := if FindColumn(b.columns, columnId).Some? then 1 else 0]
  {
    var stripped := StripId(b.columns, taskId);
    StripIdCounts(b.columns, taskId);
    FindColumnSameIds(stripped, b.columns, columnId);
    match FindColumn(stripped, columnId)
    case None =>
    case Some(k) =>
      assert MoveTaskToColumn(b, taskId, columnId, pos).columns
          == Relist(stripped, k, Place(stripped[k].taskIds, taskId, pos));
      PlaceCounts(stripped, k, taskId, pos);
      ResetTwice(multiset(Flatten(b.columns)), taskId);
  }

  /** Placing an id no column lists into column `k` makes its count one and leaves every other count. */
  lemma PlaceCounts(cols: seq<Column>, k: nat, id: Id, pos: Position)
    requires k < |cols|
    requires multiset(Flatten(cols))[id] == 0
    ensures multiset(Flatten(Relist(cols, k, Place(cols[k].taskIds, id, pos))))
         == multiset(Flatten(cols))[id := 1]
  {
    ExtendCounts(cols, k, multiset{id}, Place(cols[k].taskIds, id, pos));
    AddAbsent(multiset(Flatten(cols)), id);
  }

  /** Setting a count to zero and then to one is setting it to one. */
  lemma ResetTwice(m: multiset<Id>, x: Id)
    ensures m[x := 0][x := 1] == m[x := 1]
  {
    var a := m[x := 0][x := 1];
    var c := m[x := 1];
    forall y
      ensures a[y] == c[y]
    {
    }
  }

  /** Adding one occurrence of an absent element sets its count to one. */
  lemma AddAbsent(m: multiset<Id>, x: Id)
    requires m[x] == 0
    ensures m + multiset{x} == m[x := 1]
  {
    forall y
      ensures (m + multiset{x})[y] == m[x := 1][y]
    {
    }
  }

  /** After a move into an existing column the id is at its head (`Top`) or its tail (`Bottom`). */
  lemma MoveTaskLands(b: Board, taskId: Id, columnId: Id, pos: Position)
    requires FindColumn(b.columns, columnId).Some?
    ensures var r := MoveTaskToColumn(b, taskId, columnId, pos);
      var k := FindColumn(b.columns, columnId).value;
      var ids := r.columns[k].taskIds;
      && |ids| > 0
      && (if pos == Bottom then ids[|ids| - 1] == taskId else ids[0] == taskId)
  {
    var stripped := StripId(b.columns, taskId);
    FindColumnSameIds(stripped, b.columns, columnId);
  }

  /** `after` is `before` without `id`: an order-preserving sub-list holding every other id `before` holds. */
  ghost predicate KeepsOthers(after: seq<Id>, before: seq<Id>, id: Id)
  {
    IsSubseq(after, before) && forall x :: x in after <==> x in before && x != id
  }

  /**
    A move disturbs nothing but the moved id: every column other than the
    target keeps its other ids in order, and so does the rest of the target
    list next to the placed id.
   */
  lemma MoveTaskKeepsOthers(b: Board, taskId: Id, columnId: Id, pos: Position)
    ensures var r := MoveTaskToColumn(b, taskId, columnId, pos);
      forall i :: 0 <= i < |b.columns| && FindColumn(b.columns, columnId) != Some(i) ==>
        KeepsOthers(r.columns[i].taskIds, b.columns[i].taskIds, taskId)
    ensures var r := MoveTaskToColumn(b, taskId, columnId, pos);
      FindColumn(b.columns, columnId).Some? ==>
        var k := FindColumn(b.columns, columnId).value;
        var ids := r.columns[k].taskIds;
        |ids| > 0 && KeepsOthers(if pos == Bottom then ids[..|ids| - 1] else ids[1..], b.columns[k].taskIds, taskId)
  {
    var stripped := StripId(b.columns, taskId);
    FindColumnSameIds(stripped, b.columns, columnId);
    var r := MoveTaskToColumn(b, taskId, columnId, pos);
    forall i | 0 <= i < |b.columns| && FindColumn(b.columns, columnId) != Some(i)
      ensures KeepsOthers(r.columns[i].taskIds, b.columns[i].taskIds, taskId)
    {
      assert r.columns[i] == stripped[i];
    }
    match FindColumn(stripped, columnId)
    case None =>
    case Some(k) =>
      assert r.columns[k].taskIds == Place(stripped[k].taskIds, taskId, pos);
  }

  /** After a move into an existing column no other column lists the id. */
  lemma MoveTaskLeavesOthers(b: Board, taskId: Id, columnId: Id, pos: Position)
    requires FindColumn(b.columns, columnId).Some?
    ensures var r := MoveTaskToColumn(b, taskId, columnId, pos);
      var k := FindColumn(b.columns, columnId).value;
      forall i :: 0 <= i < |b.columns| && i != k ==> taskId !in r.columns[i].taskIds
  {
    var stripped := StripId(b.columns, taskId);
    FindColumnSameIds(stripped, b.columns, columnId);
    var k := FindColumn(stripped, columnId).value;
    var r := MoveTaskToColumn(b, taskId, columnId, pos);
    forall i | 0 <= i < |b.columns| && i != k
      ensures taskId !in r.columns[i].taskIds
    {
      assert r.columns[i] == stripped[i];
    }
  }

  /** Moving a task that exists into an existing column keeps the board valid. */
  lemma MoveTaskPreservesValid(b: Board, taskId: Id, columnId: Id, pos: Position)
    requires Valid(b)
    requires taskId in TaskIds(b.tasks)
    requires FindColumn(b.columns, columnId).Some?
    ensures Valid(MoveTaskToColumn(b, taskId, columnId, pos))
  {
    var r := MoveTaskToColumn(b, taskId, columnId, pos);
    MoveTaskCounts(b, taskId, columnId, pos);
    var before := multiset(Flatten(b.columns));
    assert before[taskId] == 1 by {
      var t :| t in b.tasks && t.id == taskId;
      assert taskId in Flatten(b.columns);
    }
    assert before[taskId := 1] == before;
    assert UniqueColumnIds(r.columns) by {
      assert forall i :: 0 <= i < |r.columns| ==> r.columns[i].id == b.columns[i].id;
    }
    SameListingValid(b, r);
  }

  // ---------------------------------------------------------------------
  // addTask

  /** The column `addTask` puts a new task into: the one named by id, else the first. */
  function AddTarget(cols: seq<Column>, columnId: Id): (k: nat)
    requires |cols| > 0
    ensures k < |cols|
    ensures FindColumn(cols, columnId).None? ==> k == 0
    ensures FindColumn(cols, columnId).Some? ==>
      && cols[k].id == columnId
      && forall j :: 0 <= j < k ==> cols[j].id != columnId
  {
    match FindColumn(cols, columnId)
    case Some(k) => k
    case None => 0
  }

  /**
    `addTask`: blank text changes nothing; otherwise the new task (trimmed
    text, not completed, dated `date`) heads the task list and its id heads
    the target column, no other column changing.
   */
  function AddTask(b: Board, text: string, columnId: Id, newId: Id, date: string, now: int, due: int): (r: Board)
    requires IsBlank(text) || |b.columns| > 0
    ensures IsBlank(text) ==> r == b
    ensures !IsBlank(text) ==>
      && |r.tasks| == |b.tasks| + 1
      && r.tasks[0] == Task(newId, Trim(text), false, Some(date), now, Some(due))
      && r.tasks[1..] == b.tasks
      && Trim(text) != []
    ensures !IsBlank(text) ==>
      var k := AddTarget(b.columns, columnId);
      && |r.columns| == |b.columns|
      && r.columns[k].id == b.columns[k].id && r.columns[k].name == b.columns[k].name
      && r.columns[k].taskIds == [newId] + b.columns[k].taskIds
      && forall i :: 0 <= i < |b.columns| && i != k ==> r.columns[i] == b.columns[i]
  {
    TrimEmptyIff(text);
    var trimmed := Trim(text);
    if trimmed == [] then b
    else
      var task := Task(newId, trimmed, false, Some(date), now, Some(due));
      var k := AddTarget(b.columns, columnId);
      var col := b.columns[k];
      Board([task] + b.tasks, Relist(b.columns, k, [newId] + col.taskIds))
  }

  /** Adding a task under a fresh id keeps the board valid. */
  lemma AddTaskPreservesValid(b: Board, text: string, columnId: Id, newId: Id, date: string, now: int, due: int)
    requires |b.columns| > 0
    requires Valid(b)
    requires newId !in TaskIds(b.tasks)
    ensures Valid(AddTask(b, text, columnId, newId, date, now, due))
  {
    if !IsBlank(text) {
      AddTaskIds(b, text, columnId, newId, date, now, due);
      AddTaskColumns(b, text, columnId, newId, date, now, due);
    }
  }

  /** The new task's id is unique among the tasks. */
  lemma AddTaskIds(b: Board, text: string, columnId: Id, newId: Id, date: string, now: int, due: int)
    requires |b.columns| > 0
    requires UniqueTaskIds(b.tasks)
    requires newId !in TaskIds(b.tasks)
    requires !IsBlank(text)
    ensures var r := AddTask(b, text, columnId, newId, date, now, due);
      UniqueTaskIds(r.tasks) && TaskIds(r.tasks) == TaskIds(b.tasks) + {newId}
  {
    var r := AddTask(b, text, columnId, newId, date, now, due);
    assert r.tasks == [r.tasks[0]] + b.tasks;
    forall i, j | 0 <= i < j < |r.tasks|
      ensures r.tasks[i].id != r.tasks[j].id
    {
      assert r.tasks[j] == b.tasks[j - 1];
      if i > 0 {
        assert r.tasks[i] == b.tasks[i - 1];
      }
    }
  }

  /** The new id is listed exactly once, in its target column; all other counts stay. */
  lemma AddTaskColumns(b: Board, text: string, columnId: Id, newId: Id, date: string, now: int, due: int)
    requires |b.columns| > 0
    requires Valid(b)
    requires newId !in TaskIds(b.tasks)
    requires !IsBlank(text)
    ensures var r := AddTask(b, text, columnId, newId, date, now, due);
      && multiset(Flatten(r.columns)) == multiset(Flatten(b.columns)) + multiset{newId}
      && UniqueColumnIds(r.columns) && NoDanglingIds(r) && DistinctPlacement(r.columns) && AllPlaced(r)
  {
    var r := AddTask(b, text, columnId, newId, date, now, due);
    AddTaskIds(b, text, columnId, newId, date, now, due);
    var k := AddTarget(b.columns, columnId);
    var placed := [newId] + b.columns[k].taskIds;
    assert r.columns == Relist(b.columns, k, placed);
    ExtendCounts(b.columns, k, multiset{newId}, placed);
    assert newId !in Flatten(b.columns);
    var m := multiset(Flatten(r.columns));
    forall x | x in Flatten(r.columns)
      ensures x in TaskIds(r.tasks)
    {
      assert m[x] > 0;
    }
    forall t | t in r.tasks
      ensures t.id in Flatten(r.columns)
    {
      if t.id != newId {
        assert t in b.tasks;
        assert multiset(Flatten(b.columns))[t.id] > 0;
      }
      assert m[t.id] > 0;
    }
  }

  // ---------------------------------------------------------------------
  // removeTask

  /**
    `removeTask`: afterwards no task and no column mentions `id`; every
    other task and every other listed id survives in its original order.
   */
  function RemoveTask(b: Board, id: Id): (r: Board)
    ensures id !in TaskIds(r.tasks) && id !in Flatten(r.columns)
    ensures forall t :: t in r.tasks <==> t in b.tasks && t.id != id
    ensures IsSubseq(r.tasks, b.tasks)
    ensures SameHeads(r.columns, b.columns)
    ensures forall i :: 0 <= i < |b.columns| ==>
      && IsSubseq(r.columns[i].taskIds, b.columns[i].taskIds)
      && forall x :: x in r.columns[i].taskIds <==> x in b.columns[i].taskIds && x != id
  {
    var tasks := Filter(b.tasks, OtherTask(id));
    var cols := StripId(b.columns, id);
    StripIdCounts(b.columns, id);
    assert multiset(Flatten(cols))[id] == 0;
    Board(tasks, cols)
  }

  /** Removal drops exactly the listings of `id`: every other id keeps its count. */
  lemma RemoveTaskCounts(b: Board, id: Id)
    ensures multiset(Flatten(RemoveTask(b, id).columns)) == multiset(Flatten(b.columns))[id := 0]
  {
    StripIdCounts(b.columns, id);
  }

  /** Removing an id that no task carries and no column lists changes nothing. */
  lemma RemoveUnknownTask(b: Board, id: Id)
    requires id !in TaskIds(b.tasks) && id !in Flatten(b.columns)
    ensures RemoveTask(b, id) == b
  {
    StripIdNothing(b.columns, id);
    assert forall i :: 0 <= i < |b.tasks| ==> OtherTask(id)(b.tasks[i]);
  }

  /** Removing a task keeps the board valid. */
  lemma RemoveTaskPreservesValid(b: Board, id: Id)
    requires Valid(b)
    ensures Valid(RemoveTask(b, id))
  {
    var r := RemoveTask(b, id);
    FilterKeepsUniqueIds(b.tasks, OtherTask(id));
    assert r.tasks == Filter(b.tasks, OtherTask(id));
    RemoveTaskColumns(b, id);
  }

  lemma RemoveTaskColumns(b: Board, id: Id)
    requires Valid(b)
    ensures var r := RemoveTask(b, id);
      UniqueColumnIds(r.columns) && NoDanglingIds(r) && DistinctPlacement(r.columns) && AllPlaced(r)
  {
    var r := RemoveTask(b, id);
    var m := multiset(Flatten(r.columns));
    RemoveTaskCounts(b, id);
    forall x | x in Flatten(r.columns)
      ensures x in TaskIds(r.tasks)
    {
      assert m[x] > 0;
      assert x in Flatten(b.columns);
      var t :| t in b.tasks && t.id == x;
      assert t in r.tasks;
    }
    forall t | t in r.tasks
      ensures t.id in Flatten(r.columns)
    {
      assert multiset(Flatten(b.columns))[t.id] > 0;
      assert m[t.id] > 0;
    }
  }

  // ---------------------------------------------------------------------
  // toggleTask

  /**
    The column `toggleTask` moves a task into: when completing, the first
    done-like column, else the last column; when un-completing, the first
    todo-like column, else the first column. None only for a board without
    columns.
   */
  function Destination(cols: seq<Column>, completing: bool): (r: Option<nat>)
    ensures r.None? <==> |cols| == 0
    ensures r.Some? ==> r.value < |cols|
    ensures r.Some? && completing ==>
      if exists i :: 0 <= i < |cols| && IsDoneName(cols[i].name)
      then IsDoneName(cols[r.value].name) && forall j :: 0 <= j < r.value ==> !IsDoneName(cols[j].name)
      else r.value == |cols| - 1
    ensures r.Some? && !completing ==>
      if exists i :: 0 <= i < |cols| && IsTodoName(cols[i].name)
      then IsTodoName(cols[r.value].name) && forall j :: 0 <= j < r.value ==> !IsTodoName(cols[j].name)
      else r.value == 0
  {
    var names := if completing then DoneNames else TodoNames;
    match FindColumnByNames(cols, names)
    case Some(k) => Some(k)
    case None =>
      if |cols| == 0 then None
      else if completing then Some(|cols| - 1)
      else Some(0)
  }

  /**
    `toggleTask`: an unknown id changes nothing; otherwise the first task
    with that id has its completion flipped and is moved to the head of its
    destination column (tasks are otherwise untouched).
   */
  function ToggleTask(b: Board, id: Id): (r: Board)
    ensures id !in TaskIds(b.tasks) ==> r == b
    ensures FindTask(b.tasks, id).Some? ==>
      var i := FindTask(b.tasks, id).value;
      r.tasks == b.tasks[i := b.tasks[i].(completed := !b.tasks[i].completed)]
    ensures |r.columns| == |b.columns|
    ensures |b.columns| == 0 ==> r.columns == b.columns
  {
    match FindTask(b.tasks, id)
    case None => b
    case Some(i) =>
      var t := b.tasks[i];
      var flipped := b.(tasks := b.tasks[i := t.(completed := !t.completed)]);
      match Destination(b.columns, !t.completed)
      case None => flipped
      case Some(k) => MoveTaskToColumn(flipped, id, b.columns[k].id, Top)
  }

  /**
    With unique column ids, a toggled task ends up at the head of its
    destination column and in no other column.
   */
  lemma ToggleTaskRelocates(b: Board, id: Id)
    requires UniqueColumnIds(b.columns)
    requires id in TaskIds(b.tasks)
    requires |b.columns| > 0
    ensures var r := ToggleTask(b, id);
      var i := FindTask(b.tasks, id).value;
      var k := Destination(b.columns, !b.tasks[i].completed).value;
      && r.tasks[i].completed == !b.tasks[i].completed
      && |r.columns[k].taskIds| > 0 && r.columns[k].taskIds[0] == id
      && (forall j :: 0 <= j < |b.columns| && j != k ==> id !in r.columns[j].taskIds)
      && multiset(Flatten(r.columns)) == multiset(Flatten(b.columns))[id := 1]
  {
    var i := FindTask(b.tasks, id).value;
    var k := Destination(b.columns, !b.tasks[i].completed).value;
    FindOwnColumn(b.columns, k);
    var t := b.tasks[i];
    var flipped := b.(tasks := b.tasks[i := t.(completed := !t.completed)]);
    assert ToggleTask(b, id) == MoveTaskToColumn(flipped, id, b.columns[k].id, Top);
    MoveTaskCounts(flipped, id, b.columns[k].id, Top);
    MoveTaskLands(flipped, id, b.columns[k].id, Top);
    MoveTaskLeavesOthers(flipped, id, b.columns[k].id, Top);
  }

  /**
    `after` lists the columns of `before` with `id` placed at the head of
    column `k`: every column keeps, in order, exactly its ids other than
    `id`, column `k` behind its new head.
   */
  ghost predicate KeptAround(after: seq<Column>, before: seq<Column>, k: int, id: Id)
  {
    && |after| == |before| && 0 <= k < |before|
    && |after[k].taskIds| > 0
    && KeepsOthers(after[k].taskIds[1..], before[k].taskIds, id)
    && forall j :: 0 <= j < |before| && j != k ==> KeepsOthers(after[j].taskIds, before[j].taskIds, id)
  }

  /** A toggle moves no other id: every column keeps its other ids in order. */
  lemma ToggleTaskKeepsOthers(b: Board, id: Id)
    requires UniqueColumnIds(b.columns)
    requires id in TaskIds(b.tasks)
    requires |b.columns| > 0
    ensures var i := FindTask(b.tasks, id).value;
      KeptAround(ToggleTask(b, id).columns, b.columns, Destination(b.columns, !b.tasks[i].completed).value, id)
  {
    var i := FindTask(b.tasks, id).value;
    var k := Destination(b.columns, !b.tasks[i].completed).value;
    FindOwnColumn(b.columns, k);
    var t := b.tasks[i];
    var flipped := b.(tasks := b.tasks[i := t.(completed := !t.completed)]);
    var r := MoveTaskToColumn(flipped, id, b.columns[k].id, Top);
    assert ToggleTask(b, id) == r;
    assert FindColumn(flipped.columns, b.columns[k].id) == Some(k);
    MoveTaskKeepsOthers(flipped, id, b.columns[k].id, Top);
    assert KeptAround(r.columns, b.columns, k, id);
  }

  /**
    Completion agrees with the column after a toggle whenever the board has
    a column of the kind the task needs: a task just completed sits in a
    done-like column if there is one; a task just reopened sits in a column
    that is not done-like if there is a todo-like one.
   */
  lemma ToggleTaskCompletionAgrees(b: Board, id: Id)
    requires UniqueColumnIds(b.columns)
    requires id in TaskIds(b.tasks)
    requires |b.columns| > 0
    ensures var r := ToggleTask(b, id);
      var i := FindTask(b.tasks, id).value;
      var k := Destination(b.columns, !b.tasks[i].completed).value;
      && ((r.tasks[i].completed && exists j :: 0 <= j < |b.columns| && IsDoneName(b.columns[j].name)) ==>
            IsDoneName(r.columns[k].name))
      && ((!r.tasks[i].completed && exists j :: 0 <= j < |b.columns| && IsTodoName(b.columns[j].name)) ==>
            !IsDoneName(r.columns[k].name))
  {
    var i := FindTask(b.tasks, id).value;
    var k := Destination(b.columns, !b.tasks[i].completed).value;
    FindOwnColumn(b.columns, k);
    DoneTodoDisjoint(b.columns[k].name);
  }

  /** Toggling a task keeps the board valid. */
  lemma ToggleTaskPreservesValid(b: Board, id: Id)
    requires Valid(b)
    ensures Valid(ToggleTask(b, id))
  {
    match FindTask(b.tasks, id)
    case None =>
    case Some(i) =>
      var t := b.tasks[i];
      var flipped := b.(tasks := b.tasks[i := t.(completed := !t.completed)]);
      SameIdsValid(b, flipped);
      assert TaskIds(flipped.tasks) == TaskIds(b.tasks);
      match Destination(b.columns, !t.completed)
      case None =>
      case Some(k) =>
        FindOwnColumn(b.columns, k);
        MoveTaskPreservesValid(flipped, id, b.columns[k].id, Top);
  }

  // ---------------------------------------------------------------------
  // updateTask

  /**
    `updateTask`: an unknown id changes nothing. Otherwise the first task
    with that id takes the trimmed new text unless it is blank (then the old
    text stays), and its due time is reset to the end of its date when it
    has one; nothing else on the board changes.
   */
  function UpdateTask(b: Board, id: Id, newText: string, endOfDay: string -> int): (r: Board)
    ensures r.columns == b.columns && |r.tasks| == |b.tasks|
    ensures id !in TaskIds(b.tasks) ==> r == b
    ensures FindTask(b.tasks, id).Some? ==>
      var i := FindTask(b.tasks, id).value;
      var t := b.tasks[i];
      && (forall j :: 0 <= j < |b.tasks| && j != i ==> r.tasks[j] == b.tasks[j])
      && r.tasks[i].id == t.id && r.tasks[i].completed == t.completed
      && r.tasks[i].date == t.date && r.tasks[i].createdAt == t.createdAt
      && r.tasks[i].text == (if IsBlank(newText) then t.text else Trim(newText))
      && r.tasks[i].dueAt == (if t.date.Some? && t.date.value != "" then Some(endOfDay(t.date.value)) else t.dueAt)
  {
    TrimEmptyIff(newText);
    match FindTask(b.tasks, id)
    case None => b
    case Some(i) =>
      var t := b.tasks[i];
      var trimmed := Trim(newText);
      var text := if trimmed != [] then trimmed else t.text;
      var due := if t.date.Some? && t.date.value != "" then Some(endOfDay(t.date.value)) else t.dueAt;
      b.(tasks := b.tasks[i := t.(text := text, dueAt := due)])
  }

  /** Editing a task keeps the board valid. */
  lemma UpdateTaskPreservesValid(b: Board, id: Id, newText: string, endOfDay: string -> int)
    requires Valid(b)
    ensures Valid(UpdateTask(b, id, newText, endOfDay))
  {
    SameIdsValid(b, UpdateTask(b, id, newText, endOfDay));
  }

  /** Changing tasks in place, without touching their ids or the columns, keeps the board valid. */
  lemma SameIdsValid(b: Board, r: Board)
    requires Valid(b)
    requires r.columns == b.columns && |r.tasks| == |b.tasks|
    requires forall j :: 0 <= j < |b.tasks| ==> r.tasks[j].id == b.tasks[j].id
    ensures Valid(r)
  {
    assert TaskIds(r.tasks) == TaskIds(b.tasks) by {
      forall x | x in TaskIds(b.tasks) ensures x in TaskIds(r.tasks) {
        var u :| u in b.tasks && u.id == x;
        var j :| 0 <= j < |b.tasks| && b.tasks[j] == u;
        assert r.tasks[j].id == x;
      }
      forall x | x in TaskIds(r.tasks) ensures x in TaskIds(b.tasks) {
        var u :| u in r.tasks && u.id == x;
        var j :| 0 <= j < |r.tasks| && r.tasks[j] == u;
        assert b.tasks[j].id == x;
      }
    }
    forall u | u in r.tasks
      ensures u.id in Flatten(r.columns)
    {
      var j :| 0 <= j < |r.tasks| && r.tasks[j] == u;
      assert b.tasks[j] in b.tasks;
    }
  }
}

=== FILE: text.dfy ===
/**
  String primitives the board relies on: ECMAScript `String.prototype.trim`,
  ASCII lower-casing (as used for column-name matching) and the decimal
  rendering of a natural number (`${n}` in a template literal).
 */
module Text {

  /** ECMAScript WhiteSpace and LineTerminator code points: what `trim` strips. */
  predicate IsSpace(c: char)
  {
    || c == '\t' || c == '\n' || c == '\U{000B}' || c == '\U{000C}' || c == '\r'
    || c == ' ' || c == '\U{00A0}' || c == '\U{1680}'
    || ('\U{2000}' <= c <= '\U{200A}')
    || c == '\U{2028}' || c == '\U{2029}' || c == '\U{202F}' || c == '\U{205F}'
    || c == '\U{3000}' || c == '\U{FEFF}'
  }

  /** Nothing but white space (the empty string included). */
  predicate IsBlank(s: string)
  {
    forall k :: 0 <= k < |s| ==> IsSpace(s[k])
  }

  /** The index of the first non-space at or after `lo`, or `|s|` if there is none. */
  function SkipSpaces(s: string, lo: nat): (i: nat)
    requires lo <= |s|
    ensures lo <= i <= |s|
    ensures forall k :: lo <= k < i ==> IsSpace(s[k])
    ensures i == |s| || !IsSpace(s[i])
    decreases |s| - lo
  {
    if lo == |s| || !IsSpace(s[lo]) then lo else SkipSpaces(s, lo + 1)
  }

  /** The end of `s[lo..hi]` once its trailing white space is dropped. */
  function SkipSpacesBack(s: string, lo: nat, hi: nat): (j: nat)
    requires lo <= hi <= |s|
    ensures lo <= j <= hi
    ensures forall k :: j <= k < hi ==> IsSpace(s[k])
    ensures j == lo || !IsSpace(s[j - 1])
    decreases hi
  {
    if hi == lo || !IsSpace(s[hi - 1]) then hi else SkipSpacesBack(s, lo, hi - 1)
  }

  /**
    `String.prototype.trim`: the slice of `s` from its first to its last
    non-space; everything cut away is white space.
   */
  function Trim(s: string): (r: string)
    ensures exists i, j :: 0 <= i <= j <= |s| && r == s[i..j]
                           && (forall k :: 0 <= k < i ==> IsSpace(s[k]))
                           && (forall k :: j <= k < |s| ==> IsSpace(s[k]))
    ensures r != [] ==> !IsSpace(r[0]) && !IsSpace(r[|r| - 1])
  {
    var i := SkipSpaces(s, 0);
    var j := SkipSpacesBack(s, i, |s|);
    s[i..j]
  }

  /** A string trims to nothing exactly when it consists of white space only. */
  lemma TrimEmptyIff(s: string)
    ensures Trim(s) == [] <==> IsBlank(s)
  {
    var i := SkipSpaces(s, 0);
    if i < |s| {
      assert Trim(s)[0] == s[i];
    }
  }

  /** Trimming a trimmed string changes nothing. */
  lemma TrimIdempotent(s: string)
    ensures Trim(Trim(s)) == Trim(s)
  {
    var r := Trim(s);
    if r != [] {
      assert SkipSpaces(r, 0) == 0;
      assert SkipSpacesBack(r, 0, |r|) == |r|;
    }
  }

  function LowerChar(c: char): char
  {
    if 'A' <= c <= 'Z' then (c as int + 32) as char else c
  }

  /**
    ASCII lower-casing, character by character: no capital letter A-Z is
    left, and a character changes only when it was such a capital.
   */
  function Lower(s: string): (r: string)
    ensures |r| == |s|
    ensures forall i :: 0 <= i < |s| ==> !('A' <= r[i] <= 'Z')
    ensures forall i :: 0 <= i < |s| ==>
      r[i] == s[i] || ('A' <= s[i] <= 'Z' && r[i] as int == s[i] as int + 32)
  {
    seq(|s|, i requires 0 <= i < |s| => LowerChar(s[i]))
  }

  /** Lower-casing twice is lower-casing once. */
  lemma LowerIdempotent(s: string)
    ensures Lower(Lower(s)) == Lower(s)
  {
    var once := Lower(s);
    forall i | 0 <= i < |s|
      ensures Lower(once)[i] == once[i]
    {
    }
  }

  function DigitChar(d: nat): (c: char)
    requires d < 10
    ensures '0' <= c <= '9'
  {
    ('0' as int + d) as char
  }

  predicate AllDigits(s: string)
  {
    forall i :: 0 <= i < |s| ==> '0' <= s[i] <= '9'
  }

  /** The number a string of decimal digits denotes. */
  function DigitsValue(s: string): nat
    requires AllDigits(s)
  {
    if |s| == 0 then 0
    else DigitsValue(s[..|s| - 1]) * 10 + (s[|s| - 1] as int - '0' as int)
  }

  /** Decimal rendering of `n`: digits only, no leading zero, and it reads back as `n`. */
  function NatToString(n: nat): (r: string)
    ensures |r| >= 1 && AllDigits(r)
    ensures |r| > 1 ==> r[0] != '0'
    ensures DigitsValue(r) == n
  {
    if n < 10 then [DigitChar(n)]
    else
      var prefix := NatToString(n / 10);
      var r := prefix + [DigitChar(n % 10)];
      assert r[..|r| - 1] == prefix;
      r
  }
}
